=== FILE: README.md ===
# Adaptive chunk sizing — a Dafny model

This project models the adaptive chunking logic of a time-partitioned
PostgreSQL extension (`src/chunk_adaptive.c`). A hypertable is split into
chunks along a dimension, usually time. Before a new chunk is created, the
extension picks the width of its interval so that chunks approach a target
size in bytes. The model covers the three pure parts of that file:

- **Interval estimator** (`calculate_chunk_interval`). Each chunk of a
  window of recent chunks is classified as usable, undersized or ignored:
  - the *interval fillfactor* must be above 0.5;
  - the *size fillfactor* must be above 0.15 for the chunk to be usable.

  The usable chunks' implied intervals are averaged. When there are none,
  the undersized chunks are boosted instead. Finally, a 15% hysteresis band
  keeps the current interval when the change is small. C `double`s are
  `real`s. Each point where the C stores a double into an `int64` is an
  explicit `Floor`: the extrapolated size, every addition to
  `chunk_interval`, and the boost cast. The two integer divisions
  (`undersized_intervals / num_undersized_intervals` and
  `chunk_interval /= num_intervals`) are C's truncating division,
  `CInt.TruncDiv`.
- **Min/max locator** (`minmax_heapscan`, `minmax_indexscan`,
  `relation_minmax_indexscan`, `chunk_get_minmax`). It returns a tri-state
  `NoIndex | NoTuples | Found(slot0, slot1)` result:
  - the index path is tried first, and the heap scan only when no index
    leads with the dimension column;
  - a heap scan is the sequence of the column's values, `None` for NULL;
  - an index is its keys in index order, plus an abstract "leading column"
    flag.
- **Memory budget and target size** (`estimate_effective_memory_cache_size`,
  `calculate_initial_chunk_target_size`,
  `convert_text_memory_amount_to_bytes`, `chunk_target_size_in_bytes`).
  Also included is the signature test of `chunk_sizing_func_validate`:
  a sizing function must be `(int4, int8, int8) -> int8`.

Modules: `Wrappers` (Option/Result), `CInt` (C integer widths and
truncating division), `MemoryBudget`, `TargetSize`, `SizingFunc`, `MinMax`,
`IntervalEstimator`, and `AdaptiveChunking`. `AdaptiveChunking` ties the
pieces together: chunks, then min/max lookups, then samples, then the
estimate.

Inputs that replace calls the model cannot see:
- the system memory size and the `shared_buffers` / `effective_cache_size`
  settings are fields of `MemoryConfig`;
- `parse_int` is a `BlockParser` oracle;
- the `pg_proc` lookup is a function from OIDs to `ProcForm` rows;
- each chunk's relation size, slice and stored values are fields of `Chunk`, and so is `staleMax`, whatever the loop's uninitialised `minmax[1]` holds when the chunk is looked up;
- the current interval and the target size are parameters.

Behaviour of the code worth knowing before reading the contracts:
- The estimate can be 0. A usable chunk whose implied interval is below
  one truncates to 0, and 0 is adopted because it differs by 100%
  (`IntervalEstimator.EstimateCanBeZero`).
- `minmax_indexscan` stores the backward-scan row in slot 0, which the
  caller reads as the minimum. On a descending index (the usual index on
  the time column) that is the minimum. On an ascending index the slots
  are swapped, the data span comes out non-positive, and the chunk is
  silently ignored (`MinMax.AscendingIndexSwapsSlots`,
  `AdaptiveChunking.AscendingIndexChunkIgnored`).
- `minmax_heapscan` starts its max slot from the caller's uninitialised
  `minmax[1]` (see "## Findings"). `MinMax.ChunkGetMinMaxAsWritten` and
  `AdaptiveChunking.SampleOfAsWritten` model the lookup as written, with
  that stale value as the chunk field `staleMax`.
  `MinMax.ChunkGetMinMaxAgreement` shows it agrees with the corrected
  lookup exactly when the stale value cannot show, and
  `AdaptiveChunking.AsWrittenEstimateAgrees` lifts that to the whole
  estimate. `AdaptiveChunking.CalculateChunkIntervalAsWritten` is the
  estimate as written, and `AdaptiveChunking.StaleMaxChangesEstimate`
  shows one chunk on which the stale value moves the interval from 20 to 9,
  where the corrected `AdaptiveChunking.CalculateChunkInterval` keeps 20.
- A span wider than the slice is not rejected: the interval fillfactor
  is then above 1, and the estimate is computed from it
  (`IntervalEstimator.WideSpanChunkEstimate`).
- No guard prevents a non-finite fillfactor. The model instead requires,
  as preconditions, the conditions that keep every division finite:
  - a non-empty slice;
  - a positive current interval and target;
  - for a chunk with data, a positive size and a span of at most `size`
    slices, so that every extrapolated size is at least 1 and no size
    fillfactor is zero.

## Model

| member | source | states |
|---|---|---|
| `CInt.TruncDiv` | src/chunk_adaptive.c:180 | C integer division: the quotient truncates toward zero for either sign of the dividend |
| `MemoryBudget.ConvertTextMemoryAmountToBytes` | src/chunk_adaptive.c:59-79 | NULL text is `InvalidMemoryAmount`; unparsable text is `InvalidDataAmount`; parsable text always succeeds, with the parsed block count times BLCKSZ, a multiple of BLCKSZ whose block count is the parsed value and which fits in int64 |
| `MemoryBudget.SetEffectiveMemoryCacheSize` | src/chunk_adaptive.c:83-91 | the test hook stores the parsed amount in bytes as the override and changes nothing else in the configuration |
| `MemoryBudget.ReadBlockSetting` | src/chunk_adaptive.c:132-148 | a missing setting is `MissingConfig(name)`; an unparsable one is `InvalidConfig(name)`; a parsable one always succeeds with the parsed block count |
| `MemoryBudget.ConfiguredCacheBlocks` | src/chunk_adaptive.c:132-150 | a `shared_buffers` error wins; with `shared_buffers` readable, an `effective_cache_size` error is the result; on success the result is the larger of the two settings |
| `MemoryBudget.SysmemBound` | src/chunk_adaptive.c:127 | half the system memory, rounded toward zero: twice the bound is within one of the system memory, on the same side of zero |
| `MemoryBudget.EstimateEffectiveMemoryCacheSize` | src/chunk_adaptive.c:117-163 | a positive override is returned verbatim; otherwise configuration errors propagate; otherwise the result is the minimum of the configured bytes and half the system memory, i.e. it is at most both and equal to one of them |
| `MemoryBudget.CalculateInitialChunkTargetSize` | src/chunk_adaptive.c:165-181 | succeeds exactly when the estimate does; the result is the estimate divided by 4 with truncation, bracketed for either sign |
| `MemoryBudget.ReadableSettingsGiveEstimate` | src/chunk_adaptive.c:132-163 | without an override, two readable settings always give an estimate and an initial target |
| `MemoryBudget.OverrideIsReturnedVerbatim` | src/chunk_adaptive.c:83-130 | after the test hook stores a positive amount, the estimate is exactly that amount in bytes |
| `MemoryBudget.OverrideBypassesSysmemBound` | src/chunk_adaptive.c:126-130 | an override above half the system memory is still returned unchanged |
| `TargetSize.ToLowerAscii` | src/chunk_adaptive.c:690-694 | ASCII upper-case letters are lowered by 32 code points, all else is kept, and no upper-case letter remains |
| `TargetSize.EqualsIgnoreCase` | src/chunk_adaptive.c:690-694 | `pg_strcasecmp(s, t) == 0`: the texts are equal after folding case, and every text matches itself |
| `TargetSize.IsDisableKeyword` | src/chunk_adaptive.c:690-691 | the text is `off` or `disable` in some letter case: it folds to one of them |
| `TargetSize.IsEstimateKeyword` | src/chunk_adaptive.c:694 | the text is `estimate` in some letter case: it folds to it |
| `TargetSize.NormalizeTargetSize` | src/chunk_adaptive.c:699-701 | the stored size is never negative; it is zero iff the input is at most zero; otherwise it equals the input |
| `TargetSize.ChunkTargetSizeInBytes` | src/chunk_adaptive.c:684-704 | `off`/`disable` in any case give 0 without parsing; `estimate` in any case follows the initial target, and the initial target's error is the result's; other text follows the parser, and text the parser rejects is `InvalidDataAmount`; every result is at least 0 |
| `TargetSize.EstimateKeywordRoundTrip` | src/chunk_adaptive.c:694-695 | resolving `estimate` gives the memory estimator's initial target (normalised) or its error |
| `TargetSize.DisableKeywordsIgnoreCase` | src/chunk_adaptive.c:690-692 | `OFF` and `Disable` resolve to 0 |
| `SizingFunc.SignatureMismatch` | src/chunk_adaptive.c:661-665 | the short-circuit rejection test passes exactly the argument list `(int4, int8, int8)` with return type `int8` |
| `SizingFunc.ChunkSizingFuncValidate` | src/chunk_adaptive.c:641-682 | an invalid OID is `UndefinedFunction`; a failed lookup is `CacheLookupFailed`; a found function with the wrong signature is `InvalidSignature`; success holds iff the signature is `(int4, int8, int8) -> int8`, and records the function's schema and name |
| `SizingFunc.ExtraArgumentRejected` | src/chunk_adaptive.c:661-671 | a four-argument function is refused even when its first three types match |
| `MinMax.HeapScanStep` | src/chunk_adaptive.c:219-231 | a NULL row changes nothing; a value fills both slots and lies between them; a set min slot never rises and a set max slot never falls; each slot keeps its contents or takes the row's value |
| `MinMax.HeapScanFold` | src/chunk_adaptive.c:211-232 | the scan loop skips NULLs; a slot ends up set iff it started set or some value exists; a set min slot is a lower bound of all values, a set max slot an upper bound; each is a scanned value or its starting contents |
| `MinMax.ScanResult` | src/chunk_adaptive.c:236 | `Found` iff both slots are set, carrying their values; never `NoIndex` |
| `MinMax.MinMaxHeapScan` | src/chunk_adaptive.c:195-237 | as written: `NoTuples` iff no non-NULL value; when found, slot 0 is the least value and slot 1 is an upper bound at least the stale slot contents, either a value or the stale contents |
| `MinMax.MinMaxHeapScanIntended` | src/chunk_adaptive.c:195-237 | with both slots starting unset: `Found` iff a non-NULL value exists, and then slot 0 is the least value and slot 1 the greatest |
| `MinMax.HeapScanStaleMaxSurvives` | src/chunk_adaptive.c:201 | on the single row 5 with stale slot 100, the scan as written reports max 100, which is not the greatest value; the intended scan reports 5 |
| `MinMax.HeapScanAgreesBelowStaleMax` | src/chunk_adaptive.c:226-231 | when the stale max slot is at most some scanned value, the scan as written equals the intended scan |
| `MinMax.BackwardFirst` | src/chunk_adaptive.c:253 | a backward scan yields a row iff the index has keys; the row is a key, the greatest on an ascending index and the least on a descending one |
| `MinMax.ForwardFirst` | src/chunk_adaptive.c:262 | a forward scan yields a row iff the index has keys; the row is a key, the least on an ascending index and the greatest on a descending one |
| `MinMax.IndexScanSlots` | src/chunk_adaptive.c:248-272 | `Found` iff both the backward and the forward scan yield a row; slot 0 holds the backward row and slot 1 the forward row |
| `MinMax.MinMaxIndexScan` | src/chunk_adaptive.c:242-273 | an index with keys gives `Found(last key, first key)`; an empty one gives `NoTuples` |
| `MinMax.AscendingIndexSwapsSlots` | src/chunk_adaptive.c:253-268 | on an ascending index slot 0 is at least slot 1 |
| `MinMax.DescendingIndexKeepsOrder` | src/chunk_adaptive.c:253-268 | on a descending index slot 0 is at most slot 1 |
| `MinMax.IndexLoop` | src/chunk_adaptive.c:288-301 | the loop result is `NoIndex` iff it started so and no index leads; it is `Found` iff some index yields; then it is the scan of the first yielding index |
| `MinMax.RelationMinMaxIndexScan` | src/chunk_adaptive.c:278-304 | `NoIndex` iff no index leads with the column; `Found` iff some leading index has rows; the loop stops at the first one, whose last and first keys are the slots |
| `MinMax.TableHasMinMaxIndex` | src/chunk_adaptive.c:306-316 | true iff some index leads with the dimension column |
| `MinMax.ChunkGetMinMax` | src/chunk_adaptive.c:323-342 | the corrected lookup: the heap scan is used only when no index leads, and then the pair is the least and greatest value, present iff a value exists; otherwise the pair is the slots of the first yielding index; both values are stored in the chunk |
| `MinMax.ChunkGetMinMaxAsWritten` | src/chunk_adaptive.c:323-342 | the lookup as written: with a leading index it is the corrected lookup; otherwise the pair is present iff a value exists, slot 0 is the least value, and slot 1 is an upper bound of the values, at least the stale `minmax[1]`, and either a value or that stale contents |
| `MinMax.ChunkGetMinMaxAgreement` | src/chunk_adaptive.c:201-336 | the lookup as written equals the corrected one exactly when an index leads, the chunk has no value, or some value reaches the stale `minmax[1]` |
| `IntervalEstimator.Classify` | src/chunk_adaptive.c:521-578 | usable iff min/max was found, interval fillfactor > 0.5 and size fillfactor > 0.15, implying slice / size fillfactor > 0; undersized iff found, interval fillfactor > 0.5 and size fillfactor ≤ 0.15, with size fillfactor in (0, 0.15]; otherwise ignored |
| `IntervalEstimator.NonPositiveSpanIgnored` | src/chunk_adaptive.c:532-577 | a chunk whose slot 1 is not above slot 0 has a non-positive interval fillfactor and takes no part in the estimate |
| `IntervalEstimator.IntervalFillfactor` | src/chunk_adaptive.c:533 | the fraction of the slice the data spans is at most 1 when the span fits the slice, never above the chunk's size, and positive exactly when slot 1 lies above slot 0 |
| `IntervalEstimator.ExtrapolatedChunkSize` | src/chunk_adaptive.c:539 | the truncated extrapolated size is at least 1, and never below the chunk's actual size when the span fits the slice |
| `IntervalEstimator.ExtrapolatedChunkSizeIsLargestFit` | src/chunk_adaptive.c:539 | the truncated extrapolated size times the interval fillfactor is at most the actual size, and one more byte would exceed it |
| `IntervalEstimator.SizeFillfactor` | src/chunk_adaptive.c:540 | the size fillfactor is positive, and above 0.15 exactly when the extrapolated size exceeds 15% of the target |
| `IntervalEstimator.SliceInterval` | src/chunk_adaptive.c:518 | the slice width: start plus width is the end, and the width is positive iff the slice is non-empty |
| `IntervalEstimator.ClassifyWindow` | src/chunk_adaptive.c:504-521 | one class per chunk of the window, in window order |
| `IntervalEstimator.Tally` | src/chunk_adaptive.c:559-578 | the usable count is the number of usable chunks; the running sum is exactly the sum of the truncated implied intervals, whatever the window order; the undersized accumulators are the exact sums of slices and fillfactors |
| `IntervalEstimator.TallyWithinCountOfExactSum` | src/chunk_adaptive.c:559-563 | the truncated running sum lies between the exact sum of the implied intervals minus the usable count and the exact sum |
| `IntervalEstimator.TallySnoc` | src/chunk_adaptive.c:504-578 | the accumulators after one more chunk are one loop iteration on those before it |
| `IntervalEstimator.Accumulate` | src/chunk_adaptive.c:559-578 | an ignored chunk changes nothing; a usable chunk adds one to the usable count and its truncated implied interval to the sum, which is within one of adding the exact interval; an undersized chunk adds one to its count, its slice to the slice sum and its fillfactor to the fillfactor sum; nothing else changes |
| `IntervalEstimator.TruncatedAddBounds` | src/chunk_adaptive.c:562 | adding a double to the `int64` accumulator loses less than one, a non-negative addend never decreases it, and the result is the accumulator plus the truncated addend |
| `IntervalEstimator.TruncationPerChunk` | src/chunk_adaptive.c:559-563 | two usable chunks implying 1.5 each accumulate to 2, not to 3 |
| `IntervalEstimator.WindowTally` | src/chunk_adaptive.c:504-580 | after the window loop the accumulators hold the usable and undersized counts, the sum of the truncated implied intervals, and the exact sums of the undersized slices and fillfactors |
| `IntervalEstimator.WindowTallySnoc` | src/chunk_adaptive.c:504-580 | one more chunk at the end of the window is one more loop iteration on the accumulators |
| `IntervalEstimator.CandidateInterval` | src/chunk_adaptive.c:594-615 | no candidate iff no usable chunk and at most one undersized chunk; with usable chunks it is their truncated mean, ignoring undersized chunks; otherwise it is the floor of avg_interval × 0.165 / avg_fillfactor |
| `IntervalEstimator.BoostedInterval` | src/chunk_adaptive.c:596-603 | the untruncated boosted interval is positive |
| `IntervalEstimator.BoostNeverShrinks` | src/chunk_adaptive.c:596-603 | while the mean undersized fillfactor is at most 0.165, the boosted interval is at least the average undersized slice |
| `IntervalEstimator.RelativeChange` | src/chunk_adaptive.c:622 | the relative change is never negative and is zero exactly when the candidate equals the current interval |
| `IntervalEstimator.ApplyHysteresis` | src/chunk_adaptive.c:617-638 | the result is the current interval or the candidate, and equals the current interval exactly when the relative change is at most 0.15 |
| `IntervalEstimator.HysteresisBand` | src/chunk_adaptive.c:622-624 | a relative change of at most 0.15 means 0.85·current ≤ candidate ≤ 1.15·current |
| `IntervalEstimator.EstimateInterval` | src/chunk_adaptive.c:588-638 | with no usable chunk and at most one undersized chunk the current interval is returned without hysteresis; otherwise the result is the current interval iff the candidate is within 15%, and the candidate otherwise |
| `IntervalEstimator.ExactFitImpliesSliceWidth` | src/chunk_adaptive.c:559-563 | a chunk with both fillfactors exactly 1 implies its own slice width |
| `IntervalEstimator.ImpliedIntervalAntitone` | src/chunk_adaptive.c:539-562 | growing a usable chunk's size keeps it usable and never grows its implied interval |
| `IntervalEstimator.ExtrapolationMonotone` | src/chunk_adaptive.c:533-539 | a bigger chunk with the same data span has the same interval fillfactor and extrapolates to at least as much |
| `IntervalEstimator.SizeFillfactorMonotone` | src/chunk_adaptive.c:540 | a larger extrapolated size gives a larger size fillfactor against the same target |
| `IntervalEstimator.FullerStaysUsable` | src/chunk_adaptive.c:559-560 | a chunk with the interval fillfactor of a usable chunk and at least its size fillfactor is usable too |
| `IntervalEstimator.FullerImpliesNarrower` | src/chunk_adaptive.c:559-562 | of two dense chunks over the same slice, the one with the larger size fillfactor is usable too and implies the narrower interval |
| `IntervalEstimator.WideSpanChunkEstimate` | src/chunk_adaptive.c:533-638 | a chunk whose span 95 exceeds its slice of 10 has interval fillfactor 9.5, extrapolated size 105 and size fillfactor 1.05, is usable, and moves the interval 20 to 9 |
| `IntervalEstimator.EstimateCanBeZero` | src/chunk_adaptive.c:562-638 | a 3-unit slice holding 1000 bytes against a 1-byte target yields the interval 0 |
| `IntervalEstimator.OneUsableChunk` | src/chunk_adaptive.c:559-638 | a window of one usable chunk proposes the floor of its implied interval, and hysteresis decides against the current interval |
| `IntervalEstimator.DayChunkOverTargetShrinks` | src/chunk_adaptive.c:559-638 | a full day chunk at 120% of a 100 MB target moves the interval 86400 to 72000 |
| `IntervalEstimator.DayChunkNearTargetKept` | src/chunk_adaptive.c:622-630 | the same chunk at 108% implies 80000, within 15%, so 86400 is kept |
| `IntervalEstimator.LoneIgnoredKeepsInterval` | src/chunk_adaptive.c:604-613 | a window of one ignored chunk keeps the current interval |
| `IntervalEstimator.SingleUndersizedKeepsInterval` | src/chunk_adaptive.c:594-613 | a window with a single undersized chunk keeps the current interval |
| `IntervalEstimator.TwoUndersizedChunksBoost` | src/chunk_adaptive.c:594-604 | two full chunks at 10% of the target boost the interval 1000 to 1650 |
| `IntervalEstimator.TenthOfTargetUndersized` | src/chunk_adaptive.c:532-571 | a full slice of 1000 holding a tenth of the target is undersized with size fillfactor 0.1 |
| `IntervalEstimator.TallyTwoUndersized` | src/chunk_adaptive.c:566-577 | two equal undersized chunks accumulate twice the slice, twice the fillfactor and a count of 2 |
| `IntervalEstimator.TallyTwoTenths` | src/chunk_adaptive.c:566-577 | two undersized slices of 1000 at fillfactor 0.1 accumulate to 2000, 0.2 and a count of 2 |
| `IntervalEstimator.BoostOfTwoTenths` | src/chunk_adaptive.c:594-604 | two undersized slices of 1000 at fillfactor 0.1 boost to 1650 |
| `AdaptiveChunking.SampleOf` | src/chunk_adaptive.c:506-521 | a chunk whose stored values lie in its slice, with a positive size when it has data, gives a sample the estimator accepts, and its data span fits the slice |
| `AdaptiveChunking.SampleOfAsWritten` | src/chunk_adaptive.c:506-521 | the sample built with the lookup as written is the corrected sample exactly when the chunk's stale `minmax[1]` cannot show |
| `AdaptiveChunking.Samples` | src/chunk_adaptive.c:504-521 | one sample per chunk, each built from the chunk's corrected min/max lookup, all valid for the estimator |
| `AdaptiveChunking.SamplesAsWritten` | src/chunk_adaptive.c:504-521 | one sample per chunk, each built with the lookup as written |
| `AdaptiveChunking.AsWrittenEstimateAgrees` | src/chunk_adaptive.c:504-639 | when no chunk's stale `minmax[1]` shows, the window as written is the corrected window, valid for the estimator, and the estimate as written is `CalculateChunkInterval`'s |
| `AdaptiveChunking.StaleMaxBreaksSliceBound` | src/chunk_adaptive.c:201-336 | a valid chunk without index holding only 5 in the slice [0, 10), looked up with 100 in `minmax[1]`, yields the pair (5, 100), a sample the estimator accepts although its span exceeds its slice |
| `AdaptiveChunking.StaleMaxChangesEstimate` | src/chunk_adaptive.c:201-638 | that chunk alone, with current interval 20 and target 100: the estimate as written is 9, the corrected estimate 20 |
| `AdaptiveChunking.CalculateChunkInterval` | src/chunk_adaptive.c:458-639 | with the corrected lookup: the result is never negative, and is either the current interval or the candidate the window's accumulators suggest |
| `AdaptiveChunking.CalculateChunkIntervalAsWritten` | src/chunk_adaptive.c:458-639 | with the lookup as written: the result is never negative, and is either the current interval or the candidate the accumulators of the window as written suggest |
| `AdaptiveChunking.LoneEmptySpanKeepsInterval` | src/chunk_adaptive.c:521-613 | a window of one chunk whose looked-up span is not positive keeps the current interval |
| `AdaptiveChunking.NoMinMaxKeepsInterval` | src/chunk_adaptive.c:521-613 | a window where no chunk's min/max lookup succeeds keeps the current interval |
| `AdaptiveChunking.NoDataNoEvidence` | src/chunk_adaptive.c:604-613 | a window without min/max data has no usable and no undersized chunk |
| `AdaptiveChunking.AllIgnoredNoEvidence` | src/chunk_adaptive.c:559-578 | ignored chunks add nothing to either accumulator |
| `AdaptiveChunking.AscendingIndexChunkIgnored` | src/chunk_adaptive.c:521-533 | a chunk read through ascending indexes only has a non-positive data span and is ignored |

## Left out

- Catalog and cache access is not modelled: the dimension and hypertable lookups, `chunk_get_window`, `chunk_get_attno`, `hypertable_update`, and the syscache. The window, the current interval and the `pg_proc` row are inputs.
- `pg_total_relation_size` is not modelled: each chunk's size is a field.
- Scans, snapshots and locks are not modelled: scans are the value sequences they yield. The leading-column test on attribute numbers is the abstract flag `leadsWithColumn`.
- `time_value_to_internal` is not modelled: values arrive as internal integers. The type's comparison function is the order on `int`. The "no comparison function" error (lines 206-207) is therefore not modelled.
- Index keys are non-NULL: the dimension column of a hypertable is `NOT NULL`. What a NULL key would put in a slot is not modelled.
- `system_memory_bytes`, `GetConfigOption` and `parse_int` are not modelled: they are `MemoryConfig` fields and a parser oracle.
- `pg_strcasecmp` folding of non-ASCII upper-case letters is not modelled, because it depends on the locale.
- Exact IEEE-754 rounding is not modelled. The thresholds are the exact decimals 0.5, 0.15 and 0.165, not their binary doubles. Intermediate doubles are exact reals.
- `IntervalEstimator.HysteresisBand`: the lower edge of the band differs from the source on ordinary integers. In doubles `1.0 - 85.0/100.0` is 0.15000000000000002, above the double 0.15, so the source adopts a candidate exactly 15% below the current interval (85 against 100, 17 against 20, 73440 against 86400), where the model keeps the current interval. The upper edge, 15% above, agrees.
- Overflow of the `int64` accumulators, of `range_end - range_start`, and of the double-to-`int64` casts at line 539 (the extrapolated size) and line 603 (the boosted interval) is not modelled, because the integers are unbounded. A tiny mean undersized fillfactor makes `avg_interval * incr_factor` exceed the `int64` range, which the model's `Floor` never shows.
- `IntervalEstimator.EstimateInterval`: requires `target > 0`, while the source only asserts `target >= 0`. A zero target makes the size fillfactor infinite, and reals cannot express that.
- `IntervalEstimator.EstimateInterval`: requires a positive current interval, a non-empty slice, and, for a chunk with data, a positive size and a span of at most `size` slices. Without the first two the source divides by zero. Without the last, the extrapolated size truncates to 0, the size fillfactor is 0, and two such undersized chunks make the boost divide by a zero mean fillfactor and cast an infinity to `int64`. A span wider than the slice but within `size` slices is accepted, and the source computes a finite estimate from it.
- `AdaptiveChunking.CalculateChunkInterval`: requires the same conditions through `ValidChunk`.
- `AdaptiveChunking.CalculateChunkInterval`: builds its samples with the corrected min/max lookup, not the one line 521 calls. With the lookup as written, a chunk without a leading index can report a stale maximum outside its slice (`AdaptiveChunking.StaleMaxBreaksSliceBound`). `AdaptiveChunking.CalculateChunkIntervalAsWritten` is the estimate as written. It requires the window as written to keep every span within `size` slices, which an arbitrary stale value need not. `AdaptiveChunking.StaleMaxChangesEstimate` shows the two estimates differ, and `AdaptiveChunking.AsWrittenEstimateAgrees` proves they agree on every window in which no stale value shows.
- `MinMax.ChunkGetMinMax`: is the corrected lookup, whose heap fallback is `MinMax.MinMaxHeapScanIntended`; the lookup exactly as written at lines 323-342 is `MinMax.ChunkGetMinMaxAsWritten`.
- `AdaptiveChunking.Samples`: builds every sample with `AdaptiveChunking.SampleOf`, so through the corrected lookup; `AdaptiveChunking.SamplesAsWritten` is the window as written.
- `AdaptiveChunking.SampleOf`: uses `MinMax.ChunkGetMinMax`, the corrected lookup; `AdaptiveChunking.SampleOfAsWritten` is the sample as written.
- The argument-count and hypertable-lookup errors of `calculate_chunk_interval` (lines 476-486) are not modelled, because they are catalog and calling-convention checks.
- Logging is not modelled: `elog`/`ereport` warnings, debug output, the 10 MB warning and the `check_for_index` advisory (lines 745-754).
- `chunk_adaptive_sizing_info_validate` is not modelled beyond the functions it calls (`chunk_sizing_func_validate`, `chunk_target_size_in_bytes` and `table_has_minmax_index`): its table and column checks, and a NULL target size becoming 0.
- `chunk_adaptive_set` is not modelled: tuple construction and catalog update.
- The process-wide override is an explicit `MemoryConfig` field rather than a global.

## Findings

| source | as written | input that shows it | evidently intended | confidence | as-written member | corrected member |
|---|---|---|---|---|---|---|
| src/chunk_adaptive.c:201 | `bool nulls[2] = {true};` sets only the min slot's NULL flag. The max slot starts marked as filled, holding the caller's uninitialised `minmax[1]`. | A chunk whose only value is 5, while the stale max slot holds 100, reports `Found(5, 100)`. | Both flags start set, as `minmax_indexscan` does at line 251. The same chunk reports `Found(5, 5)`. | not executed; high | `MinMax.MinMaxHeapScan` and `MinMax.ChunkGetMinMaxAsWritten`, and `AdaptiveChunking.CalculateChunkIntervalAsWritten`, shown by `MinMax.HeapScanStaleMaxSurvives`, `AdaptiveChunking.StaleMaxBreaksSliceBound` and `AdaptiveChunking.StaleMaxChangesEstimate` (interval 9 instead of 20) | `MinMax.MinMaxHeapScanIntended`, used by `MinMax.ChunkGetMinMax` |

=== FILE: adaptive_chunking.dfy ===
/**
 * `calculate_chunk_interval` end to end: each chunk of the window is looked
 * up with the min/max locator and turned into a sample, and the samples go
 * through the interval estimator.
 *
 * The window itself (`chunk_get_window`), the dimension's current interval
 * and each chunk's total relation size come from the catalog and storage
 * layer and are inputs here.
 */
module AdaptiveChunking {
  import opened Wrappers
  import opened MinMax
  import opened IntervalEstimator

  /**
   * A chunk of the window: its total relation size, its slice in the
   * dimension, the dimension column's value in each row (`None` for NULL),
   * its indexes, and whatever the loop's uninitialised `minmax[1]` holds
   * when the chunk is looked up.
   */
  datatype Chunk = Chunk(size: int, rangeStart: int, rangeEnd: int, rows: seq<Option<int>>, indexes: seq<IndexDesc>,
                         staleMax: int)

  /** Every stored value of the chunk lies in its slice, as the chunk's constraint demands. */
  predicate ValuesInSlice(c: Chunk) {
    && (forall i :: 0 <= i < |c.rows| && c.rows[i].Some? ==> c.rangeStart <= c.rows[i].value < c.rangeEnd)
    && (forall i, j :: 0 <= i < |c.indexes| && 0 <= j < |c.indexes[i].keys| ==>
          c.rangeStart <= c.indexes[i].keys[j] < c.rangeEnd)
  }

  /** The catalog and storage invariants of a chunk: a non-empty slice, data inside it, and data takes space. */
  predicate ValidChunk(c: Chunk) {
    && c.rangeStart < c.rangeEnd
    && 0 <= c.size
    && ValuesInSlice(c)
    && (ChunkGetMinMax(c.rows, c.indexes).Some? ==> 0 < c.size)
  }

  /**
   * The per-chunk inputs of the estimator loop, with the corrected min/max
   * lookup; a valid chunk gives a sample the estimator accepts, whose data
   * span fits its slice.
   */
  function SampleOf(c: Chunk): (s: ChunkSample)
    ensures ValidChunk(c) ==> ValidSample(s)
    ensures ValidChunk(c) && s.minmax.Some? ==> SpanWithinSlice(s)
  {
    var mm := ChunkGetMinMax(c.rows, c.indexes);
    if ValidChunk(c) && mm.Some? then
      InChunkInSlice(c, mm.value.0);
      InChunkInSlice(c, mm.value.1);
      SliceAtMostSizeSlices(c.size, c.rangeEnd - c.rangeStart);
      ChunkSample(c.size, c.rangeStart, c.rangeEnd, mm)
    else
      ChunkSample(c.size, c.rangeStart, c.rangeEnd, mm)
  }

  /** The per-chunk inputs of the estimator loop as written, through `chunk_get_minmax` with its stale max slot. */
  function SampleOfAsWritten(c: Chunk): (s: ChunkSample)
    ensures StaleMaxHarmless(c.rows, c.indexes, c.staleMax) <==> s == SampleOf(c)
  {
    ChunkGetMinMaxAgreement(c.rows, c.indexes, c.staleMax);
    ChunkSample(c.size, c.rangeStart, c.rangeEnd, ChunkGetMinMaxAsWritten(c.rows, c.indexes, c.staleMax))
  }

  /** A positive size covers at least one slice. */
  lemma SliceAtMostSizeSlices(size: int, slice: int)
    requires 0 < size && 0 <= slice
    ensures slice <= size * slice
  {
    assert size * slice == slice + (size - 1) * slice;
  }

  lemma InChunkInSlice(c: Chunk, v: int)
    requires ValuesInSlice(c) && InChunk(v, c.rows, c.indexes)
    ensures c.rangeStart <= v < c.rangeEnd
  {
    if !Occurs(v, c.rows) {
      var i, j :| 0 <= i < |c.indexes| && 0 <= j < |c.indexes[i].keys| && c.indexes[i].keys[j] == v;
    }
  }

  function Samples(chunks: seq<Chunk>): (window: seq<ChunkSample>)
    requires forall i :: 0 <= i < |chunks| ==> ValidChunk(chunks[i])
    ensures |window| == |chunks|
    ensures forall i :: 0 <= i < |chunks| ==> window[i] == SampleOf(chunks[i])
    ensures ValidWindow(window)
  {
    seq(|chunks|, i requires 0 <= i < |chunks| => SampleOf(chunks[i]))
  }

  /** The window of samples the loop as written builds. */
  function SamplesAsWritten(chunks: seq<Chunk>): (window: seq<ChunkSample>)
    ensures |window| == |chunks|
    ensures forall i :: 0 <= i < |chunks| ==> window[i] == SampleOfAsWritten(chunks[i])
  {
    seq(|chunks|, i requires 0 <= i < |chunks| => SampleOfAsWritten(chunks[i]))
  }

  /**
   * `calculate_chunk_interval`: the next interval for the dimension, given
   * its current interval, the target size in bytes and the window of chunks.
   */
  function CalculateChunkInterval(current: int, target: int, chunks: seq<Chunk>): (r: int)
    requires current > 0 && target > 0
    requires forall i :: 0 <= i < |chunks| ==> ValidChunk(chunks[i])
    ensures r == current || CandidateInterval(WindowTally(Samples(chunks), target)) == Some(r)
    ensures r >= 0
  {
    EstimateInterval(current, target, Samples(chunks))
  }

  /**
   * `calculate_chunk_interval` as written: the samples come through the
   * lookup with its stale max slot. A stale value can widen a sample's span
   * beyond its slice, and the estimator computes with it all the same; only
   * a span of more than `size` slices, which would make the arithmetic
   * leave the finite range, is excluded.
   */
  function CalculateChunkIntervalAsWritten(current: int, target: int, chunks: seq<Chunk>): (r: int)
    requires current > 0 && target > 0
    requires ValidWindow(SamplesAsWritten(chunks))
    ensures r == current || CandidateInterval(WindowTally(SamplesAsWritten(chunks), target)) == Some(r)
    ensures r >= 0
  {
    EstimateInterval(current, target, SamplesAsWritten(chunks))
  }

  /**
   * The estimate over the window the loop as written builds is the
   * corrected estimate whenever no chunk's stale max slot shows.
   */
  lemma AsWrittenEstimateAgrees(current: int, target: int, chunks: seq<Chunk>)
    requires current > 0 && target > 0
    requires forall i :: 0 <= i < |chunks| ==> ValidChunk(chunks[i])
    requires forall i :: 0 <= i < |chunks| ==> StaleMaxHarmless(chunks[i].rows, chunks[i].indexes, chunks[i].staleMax)
    ensures SamplesAsWritten(chunks) == Samples(chunks)
    ensures ValidWindow(SamplesAsWritten(chunks))
    ensures CalculateChunkIntervalAsWritten(current, target, chunks) == CalculateChunkInterval(current, target, chunks)
  {
    var a := SamplesAsWritten(chunks);
    var b := Samples(chunks);
    assert forall i :: 0 <= i < |chunks| ==> a[i] == b[i];
  }

  /**
   * A chunk without a leading index whose only value is 5 in the slice
   * [0, 10), looked up while `minmax[1]` still holds 100: the lookup as
   * written reports the pair (5, 100), whose span is wider than the slice.
   */
  lemma StaleMaxBreaksSliceBound()
    ensures var c := Chunk(1000, 0, 10, [Some(5)], [], 100);
            ValidChunk(c) &&
            SampleOfAsWritten(c).minmax == Some((5, 100)) &&
            ValidSample(SampleOfAsWritten(c)) &&
            !SpanWithinSlice(SampleOfAsWritten(c))
  {
    var c := Chunk(1000, 0, 10, [Some(5)], [], 100);
    HeapScanStaleMaxSurvives();
    assert RelationMinMaxIndexScan(c.indexes) == NoIndex;
    assert ChunkGetMinMax(c.rows, c.indexes) == Some((5, 5));
  }

  /**
   * The same chunk, alone in the window, with a current interval of 20 and
   * a target of 100 bytes: as written, the stale span makes the chunk usable
   * and the interval moves to 9; with the corrected lookup the span is 0,
   * the chunk is ignored and the interval stays 20.
   */
  lemma StaleMaxChangesEstimate()
    ensures var c := Chunk(1000, 0, 10, [Some(5)], [], 100);
            ValidChunk(c) &&
            ValidWindow(SamplesAsWritten([c])) &&
            CalculateChunkIntervalAsWritten(20, 100, [c]) == 9 &&
            CalculateChunkInterval(20, 100, [c]) == 20
  {
    var c := Chunk(1000, 0, 10, [Some(5)], [], 100);
    StaleMaxBreaksSliceBound();
    assert SamplesAsWritten([c]) == [ChunkSample(1000, 0, 10, Some((5, 100)))];
    WideSpanChunkEstimate();
    HeapScanStaleMaxSurvives();
    assert RelationMinMaxIndexScan(c.indexes) == NoIndex;
    assert ChunkGetMinMax(c.rows, c.indexes) == Some((5, 5));
    LoneEmptySpanKeepsInterval(20, 100, c);
  }

  /**
   * A window of one chunk whose looked-up span is not positive (a single
   * value, or slots swapped by an ascending index) keeps the current
   * interval.
   */
  lemma LoneEmptySpanKeepsInterval(current: int, target: int, c: Chunk)
    requires current > 0 && target > 0 && ValidChunk(c)
    requires ChunkGetMinMax(c.rows, c.indexes).Some?
    requires ChunkGetMinMax(c.rows, c.indexes).value.1 <= ChunkGetMinMax(c.rows, c.indexes).value.0
    ensures CalculateChunkInterval(current, target, [c]) == current
  {
    assert Samples([c]) == [SampleOf(c)];
    NonPositiveSpanIgnored(SampleOf(c), target);
    LoneIgnoredKeepsInterval(current, target, SampleOf(c));
  }

  /**
   * Chunks whose min/max lookup fails take no part, so a window in which
   * every lookup fails keeps the current interval.
   */
  lemma NoMinMaxKeepsInterval(current: int, target: int, chunks: seq<Chunk>)
    requires current > 0 && target > 0
    requires forall i :: 0 <= i < |chunks| ==> ValidChunk(chunks[i])
    requires forall i :: 0 <= i < |chunks| ==> ChunkGetMinMax(chunks[i].rows, chunks[i].indexes).None?
    ensures CalculateChunkInterval(current, target, chunks) == current
  {
    var window := Samples(chunks);
    assert forall i :: 0 <= i < |window| ==> window[i].minmax.None?;
    NoDataNoEvidence(window, target);
  }

  /** A window in which no chunk has min/max data has no usable and no undersized chunk. */
  lemma NoDataNoEvidence(window: seq<ChunkSample>, target: int)
    requires ValidWindow(window) && target > 0
    requires forall i :: 0 <= i < |window| ==> window[i].minmax.None?
    ensures UsableCount(window, target) == 0 && UndersizedCount(window, target) == 0
  {
    AllIgnoredNoEvidence(ClassifyWindow(window, target));
  }

  lemma {:induction false} AllIgnoredNoEvidence(cs: seq<Class>)
    requires forall i :: 0 <= i < |cs| ==> cs[i].Ignored?
    ensures UsableImplied(cs) == [] && UndersizedSlices(cs) == []
    decreases |cs|
  {
    if |cs| > 0 {
      var prefix := cs[..|cs| - 1];
      assert forall i :: 0 <= i < |prefix| ==> prefix[i] == cs[i];
      AllIgnoredNoEvidence(prefix);
    }
  }

  /**
   * Through an ascending index, slot 0 (read as the minimum) holds the
   * largest key, so the data span is never positive and the chunk takes no
   * part in the estimate.
   */
  lemma AscendingIndexChunkIgnored(c: Chunk, target: int)
    requires ValidChunk(c) && target > 0
    requires !NoLeadingIndex(c.indexes)
    requires forall i :: 0 <= i < |c.indexes| && c.indexes[i].leadsWithColumn ==> SortedAscending(c.indexes[i].keys)
    ensures ValidSample(SampleOf(c))
    ensures Classify(SampleOf(c), target) == Ignored
  {
    var mm := ChunkGetMinMax(c.rows, c.indexes);
    if mm.Some? {
      var k :| FirstYieldingAt(c.indexes, k) &&
               mm.value == (c.indexes[k].keys[|c.indexes[k].keys| - 1], c.indexes[k].keys[0]);
      assert SortedAscending(c.indexes[k].keys);
      assert mm.value.1 <= mm.value.0;
      NonPositiveSpanIgnored(SampleOf(c), target);
    }
  }
}

=== FILE: c_int.dfy ===
/** The C integer semantics the source relies on: fixed widths and truncating division. */
module CInt {

  const INT64_MIN: int := -0x8000_0000_0000_0000
  const INT64_MAX: int := 0x7FFF_FFFF_FFFF_FFFF

  /** A C `int` (32 bits), the type `parse_int` stores into. */
  type Int32 = x: int | -0x8000_0000 <= x < 0x8000_0000

  predicate InInt64(x: int) {
    INT64_MIN <= x <= INT64_MAX
  }

  /** C's integer `/`: the quotient is truncated toward zero, unlike Dafny's Euclidean `/`. */
  function TruncDiv(a: int, b: int): (q: int)
    requires b > 0
    ensures 0 <= a ==> b * q <= a < b * q + b
    ensures a < 0 ==> b * q - b < a <= b * q
  {
    if a >= 0 then a / b else -((-a) / b)
  }
}

=== FILE: interval_estimator.dfy ===
/**
 * The interval estimator of `calculate_chunk_interval`: classify each chunk
 * of the window, average the intervals the usable chunks imply, fall back
 * to boosting undersized chunks, and keep the current interval when the
 * change is within the hysteresis band.
 *
 * C `double`s are modelled as `real`; every place where the source stores a
 * double into an `int64` is an explicit `Floor` (all such quantities are
 * non-negative, so flooring is C's truncation).
 */
module IntervalEstimator {
  import opened Wrappers
  import opened CInt

  /** Data must span more than this fraction of a chunk's range for the chunk to be used. */
  const INTERVAL_FILLFACTOR_THRESH: real := 0.5
  /** The extrapolated size must exceed this fraction of the target size for normal use. */
  const SIZE_FILLFACTOR_THRESH: real := 0.15
  /** The relative change a new interval needs before it replaces the current one. */
  const INTERVAL_MIN_CHANGE_THRESH: real := 0.15
  /** More than this many undersized chunks are needed for the boost path. */
  const NUM_UNDERSIZED_INTERVALS: int := 1
  /** The size fillfactor the boost path aims for, just above the usable threshold. */
  const UNDERSIZED_FILLFACTOR_THRESH: real := SIZE_FILLFACTOR_THRESH * 1.1

  /**
   * One chunk of the window: its total relation size in bytes, its slice
   * `[rangeStart, rangeEnd)` in the dimension, and the (slot 0, slot 1)
   * pair of its min/max lookup, `None` when the lookup failed.
   */
  datatype ChunkSample = ChunkSample(size: int, rangeStart: int, rangeEnd: int, minmax: Option<(int, int)>)

  /** The width of the chunk's slice: its start plus the width is its end. */
  function SliceInterval(s: ChunkSample): (w: int)
    ensures s.rangeStart + w == s.rangeEnd
    ensures w > 0 <==> s.rangeStart < s.rangeEnd
  {
    s.rangeEnd - s.rangeStart
  }

  /**
   * The conditions under which the source's arithmetic stays finite: a
   * non-empty slice, and for a chunk with data a positive size and a data
   * span of at most `size` slices. The last keeps every extrapolated size at
   * least 1, so no size fillfactor is zero and the mean undersized
   * fillfactor the boost divides by is positive. A span wider than the
   * slice itself is allowed: the source computes with it.
   */
  predicate ValidSample(s: ChunkSample) {
    && s.rangeStart < s.rangeEnd
    && 0 <= s.size
    && (s.minmax.Some? ==> 0 < s.size && s.minmax.value.1 - s.minmax.value.0 <= s.size * SliceInterval(s))
  }

  /** The data span fits in the slice, as it does whenever the lookup returns stored values. */
  predicate SpanWithinSlice(s: ChunkSample)
    requires s.minmax.Some?
  {
    s.minmax.value.1 - s.minmax.value.0 <= SliceInterval(s)
  }

  predicate ValidWindow(window: seq<ChunkSample>) {
    forall i :: 0 <= i < |window| ==> ValidSample(window[i])
  }

  /**
   * The fraction of the slice the data spans, read as `max - min` with slot
   * 0 as min: at most 1 when the span fits the slice, never above the size,
   * and positive exactly when slot 1 lies above slot 0.
   */
  function IntervalFillfactor(s: ChunkSample): (f: real)
    requires ValidSample(s) && s.minmax.Some?
    ensures SpanWithinSlice(s) ==> f <= 1.0
    ensures f <= s.size as real
    ensures f > 0.0 <==> s.minmax.value.0 < s.minmax.value.1
  {
    var span := (s.minmax.value.1 - s.minmax.value.0) as real;
    var slice := SliceInterval(s) as real;
    DivLeIff(span, 1.0, slice);
    DivLeIff(span, 0.0, slice);
    DivLeIff(span, s.size as real, slice);
    assert (s.size * SliceInterval(s)) as real == s.size as real * slice;
    span / slice
  }

  /**
   * The size the chunk would have if its data spanned the whole slice,
   * truncated to `int64`: at least 1, and never less than the actual size
   * when the span fits the slice.
   */
  function ExtrapolatedChunkSize(s: ChunkSample): (e: int)
    requires ValidSample(s) && s.minmax.Some? && IntervalFillfactor(s) > 0.0
    ensures 1 <= e
    ensures SpanWithinSlice(s) ==> s.size <= e
  {
    var iff := IntervalFillfactor(s);
    assert SpanWithinSlice(s) ==> s.size as real <= s.size as real / iff by {
      if SpanWithinSlice(s) {
        QuotientAtLeastDividend(s.size as real, iff);
      }
    }
    LeDivIff(1.0, s.size as real, iff);
    (s.size as real / iff).Floor
  }

  /** The extrapolated size is the largest whole size whose share of the slice the actual size covers. */
  lemma ExtrapolatedChunkSizeIsLargestFit(s: ChunkSample)
    requires ValidSample(s) && s.minmax.Some? && IntervalFillfactor(s) > 0.0
    ensures var e := ExtrapolatedChunkSize(s);
            e as real * IntervalFillfactor(s) <= s.size as real < (e + 1) as real * IntervalFillfactor(s)
  {
    FloorOfQuotient(s.size as real, IntervalFillfactor(s));
  }

  /** The extrapolated size as a fraction of the target: positive, and above the usable threshold exactly when the extrapolated size exceeds 15% of the target. */
  function SizeFillfactor(s: ChunkSample, target: int): (f: real)
    requires ValidSample(s) && s.minmax.Some? && IntervalFillfactor(s) > 0.0 && target > 0
    ensures f > 0.0
    ensures f > SIZE_FILLFACTOR_THRESH <==> ExtrapolatedChunkSize(s) as real > SIZE_FILLFACTOR_THRESH * target as real
  {
    var e := ExtrapolatedChunkSize(s) as real;
    DivLeIff(e, 0.0, target as real);
    DivLeIff(e, SIZE_FILLFACTOR_THRESH, target as real);
    e / target as real
  }

  /** Dividing a non-negative amount by a factor in (0, 1] never makes it smaller. */
  lemma QuotientAtLeastDividend(x: real, c: real)
    requires 0.0 <= x && 0.0 < c <= 1.0
    ensures x <= x / c
  {
    var q := x / c;
    assert q * c == x;
    assert q >= 0.0 by {
      if q < 0.0 {
        ScaleStrict(q, 0.0, c);
      }
    }
    if q > 0.0 {
      ScaleMonotone(c, 1.0, q);
    }
  }

  /** The floor of `x / c` times `c` brackets `x`, for positive `c`. */
  lemma FloorOfQuotient(x: real, c: real)
    requires c > 0.0
    ensures (x / c).Floor as real * c <= x < ((x / c).Floor + 1) as real * c
  {
    var q := x / c;
    var e := q.Floor as real;
    assert q * c == x;
    assert e <= q < e + 1.0;
    ScaleMonotone(e, q, c);
    ScaleStrict(q, e + 1.0, c);
    assert x < (e + 1.0) * c;
    assert ((x / c).Floor + 1) as real == e + 1.0;
  }

  /** How a chunk takes part in the estimate. */
  datatype Class =
    | Usable(implied: real)                          // the interval that would have hit the target
    | Undersized(slice: int, sizeFillfactor: real)   // dense but too small to trust alone
    | Ignored

  /** The chunk's class under the fixed thresholds. */
  function Classify(s: ChunkSample, target: int): (c: Class)
    requires ValidSample(s) && target > 0
    ensures c.Usable? <==>
              s.minmax.Some? && IntervalFillfactor(s) > INTERVAL_FILLFACTOR_THRESH &&
              SizeFillfactor(s, target) > SIZE_FILLFACTOR_THRESH
    ensures c.Undersized? <==>
              s.minmax.Some? && IntervalFillfactor(s) > INTERVAL_FILLFACTOR_THRESH &&
              SizeFillfactor(s, target) <= SIZE_FILLFACTOR_THRESH
    ensures c.Usable? ==> c.implied * SizeFillfactor(s, target) == SliceInterval(s) as real && c.implied > 0.0
    ensures c.Undersized? ==>
              c.slice == SliceInterval(s) && c.sizeFillfactor == SizeFillfactor(s, target) &&
              0.0 < c.sizeFillfactor <= SIZE_FILLFACTOR_THRESH
  {
    if s.minmax.None? || IntervalFillfactor(s) <= INTERVAL_FILLFACTOR_THRESH then Ignored
    else
      var sff := SizeFillfactor(s, target);
      if sff > SIZE_FILLFACTOR_THRESH then Usable(SliceInterval(s) as real / sff)
      else Undersized(SliceInterval(s), sff)
  }

  /** A chunk whose slot 1 is not above slot 0 has no positive span and is ignored. */
  lemma NonPositiveSpanIgnored(s: ChunkSample, target: int)
    requires ValidSample(s) && target > 0 && s.minmax.Some?
    requires s.minmax.value.1 <= s.minmax.value.0
    ensures Classify(s, target) == Ignored
  {
  }

  /** The classes of a window, one per chunk, in window order. */
  function ClassifyWindow(window: seq<ChunkSample>, target: int): (cs: seq<Class>)
    requires ValidWindow(window) && target > 0
    ensures |cs| == |window|
    ensures forall i :: 0 <= i < |window| ==> cs[i] == Classify(window[i], target)
    decreases |window|
  {
    if |window| == 0 then []
    else
      var prefix := window[..|window| - 1];
      assert forall i :: 0 <= i < |prefix| ==> prefix[i] == window[i];
      ClassifyWindow(prefix, target) + [Classify(window[|window| - 1], target)]
  }

  /** Classes whose values are in range: every undersized size fillfactor is in (0, 0.15]. */
  predicate WellFormedClass(c: Class) {
    match c
    case Usable(implied) => implied > 0.0
    case Undersized(slice, sff) => slice > 0 && 0.0 < sff <= SIZE_FILLFACTOR_THRESH
    case Ignored => true
  }

  predicate WellFormedClasses(cs: seq<Class>) {
    forall i :: 0 <= i < |cs| ==> WellFormedClass(cs[i])
  }

  // ---------------------------------------------------------------------
  // Reference sums over the classes
  // ---------------------------------------------------------------------

  /** The implied intervals of the usable chunks, in window order. */
  function UsableImplied(cs: seq<Class>): seq<real>
    decreases |cs|
  {
    if |cs| == 0 then []
    else
      var rest := UsableImplied(cs[..|cs| - 1]);
      if cs[|cs| - 1].Usable? then rest + [cs[|cs| - 1].implied] else rest
  }

  /** The slices of the undersized chunks, in window order. */
  function UndersizedSlices(cs: seq<Class>): seq<int>
    decreases |cs|
  {
    if |cs| == 0 then []
    else
      var rest := UndersizedSlices(cs[..|cs| - 1]);
      if cs[|cs| - 1].Undersized? then rest + [cs[|cs| - 1].slice] else rest
  }

  /** The size fillfactors of the undersized chunks, in window order. */
  function UndersizedFillfactors(cs: seq<Class>): seq<real>
    decreases |cs|
  {
    if |cs| == 0 then []
    else
      var rest := UndersizedFillfactors(cs[..|cs| - 1]);
      if cs[|cs| - 1].Undersized? then rest + [cs[|cs| - 1].sizeFillfactor] else rest
  }

  function SumReal(xs: seq<real>): real
    decreases |xs|
  {
    if |xs| == 0 then 0.0 else SumReal(xs[..|xs| - 1]) + xs[|xs| - 1]
  }

  function SumInt(xs: seq<int>): int
    decreases |xs|
  {
    if |xs| == 0 then 0 else SumInt(xs[..|xs| - 1]) + xs[|xs| - 1]
  }

  /** The sum of the values each truncated on its own. */
  function SumFloor(xs: seq<real>): int
    decreases |xs|
  {
    if |xs| == 0 then 0 else SumFloor(xs[..|xs| - 1]) + xs[|xs| - 1].Floor
  }

  // ---------------------------------------------------------------------
  // The accumulation loop
  // ---------------------------------------------------------------------

  /**
   * The loop's accumulators: `chunk_interval` and `num_intervals` for the
   * usable chunks, `undersized_intervals`, `undersized_fillfactor` and
   * `num_undersized_intervals` for the undersized ones.
   */
  datatype Acc = Acc(usableSum: int, usableCount: nat, undersizedSum: int, undersizedFillfactor: real, undersizedCount: nat)

  /** One loop iteration; `chunk_interval` is an `int64`, so every addition is truncated. */
  function Accumulate(acc: Acc, c: Class): (r: Acc)
    ensures c.Ignored? ==> r == acc
    ensures r.usableCount == acc.usableCount + (if c.Usable? then 1 else 0)
    ensures r.undersizedCount == acc.undersizedCount + (if c.Undersized? then 1 else 0)
    ensures c.Usable? ==>
              acc.usableSum as real + c.implied - 1.0 < r.usableSum as real <= acc.usableSum as real + c.implied
    ensures c.Usable? ==> r.usableSum == acc.usableSum + c.implied.Floor
    ensures c.Usable? && c.implied >= 0.0 ==> acc.usableSum <= r.usableSum
    ensures c.Usable? ==> r.undersizedSum == acc.undersizedSum && r.undersizedFillfactor == acc.undersizedFillfactor
    ensures c.Undersized? ==>
              r.usableSum == acc.usableSum &&
              r.undersizedSum == acc.undersizedSum + c.slice &&
              r.undersizedFillfactor == acc.undersizedFillfactor + c.sizeFillfactor
  {
    match c
    case Usable(implied) =>
      TruncatedAddBounds(acc.usableSum, implied);
      acc.(usableSum := (acc.usableSum as real + implied).Floor, usableCount := acc.usableCount + 1)
    case Undersized(slice, sff) =>
      acc.(undersizedSum := acc.undersizedSum + slice,
           undersizedFillfactor := acc.undersizedFillfactor + sff,
           undersizedCount := acc.undersizedCount + 1)
    case Ignored => acc
  }

  /**
   * The accumulators after the whole window. The running sum is an integer
   * before each addition, so truncating the sum is truncating the addend:
   * the usable sum is the sum of the truncated implied intervals, whatever
   * the window order (`TallyWithinCountOfExactSum` bounds it by the exact sum).
   * The undersized accumulators are exact sums.
   */
  function Tally(cs: seq<Class>): (acc: Acc)
    requires WellFormedClasses(cs)
    ensures acc.usableCount == |UsableImplied(cs)|
    ensures acc.usableSum == SumFloor(UsableImplied(cs))
    ensures 0 <= acc.usableSum
    ensures acc.undersizedCount == |UndersizedSlices(cs)| == |UndersizedFillfactors(cs)|
    ensures acc.undersizedSum == SumInt(UndersizedSlices(cs)) && acc.undersizedSum >= acc.undersizedCount
    ensures acc.undersizedFillfactor == SumReal(UndersizedFillfactors(cs))
    ensures acc.undersizedCount > 0 ==> acc.undersizedFillfactor > 0.0
    ensures acc.usableCount + acc.undersizedCount <= |cs|
    decreases |cs|
  {
    if |cs| == 0 then Acc(0, 0, 0, 0.0, 0)
    else
      TallyStepFacts(cs);
      var acc := Tally(cs[..|cs| - 1]);
      var c := cs[|cs| - 1];
      Accumulate(acc, c)
  }

  /** How the reference sums of a class sequence relate to those of its prefix without the last class. */
  lemma TallyStepFacts(cs: seq<Class>)
    requires |cs| > 0 && WellFormedClasses(cs)
    ensures WellFormedClasses(cs[..|cs| - 1]) && WellFormedClass(cs[|cs| - 1])
    ensures var p := cs[..|cs| - 1];
            var c := cs[|cs| - 1];
            && |UsableImplied(cs)| == |UsableImplied(p)| + (if c.Usable? then 1 else 0)
            && SumFloor(UsableImplied(cs)) == SumFloor(UsableImplied(p)) + (if c.Usable? then c.implied.Floor else 0)
            && |UndersizedSlices(cs)| == |UndersizedSlices(p)| + (if c.Undersized? then 1 else 0)
            && |UndersizedFillfactors(cs)| == |UndersizedFillfactors(p)| + (if c.Undersized? then 1 else 0)
            && SumInt(UndersizedSlices(cs)) == SumInt(UndersizedSlices(p)) + (if c.Undersized? then c.slice else 0)
            && SumReal(UndersizedFillfactors(cs)) ==
               SumReal(UndersizedFillfactors(p)) + (if c.Undersized? then c.sizeFillfactor else 0.0)
  {
    var p := cs[..|cs| - 1];
    var c := cs[|cs| - 1];
    assert forall i :: 0 <= i < |p| ==> p[i] == cs[i];
    if c.Usable? {
      SumFloorSnoc(UsableImplied(p), c.implied);
    }
    if c.Undersized? {
      SumIntSnoc(UndersizedSlices(p), c.slice);
      SumRealSnoc(UndersizedFillfactors(p), c.sizeFillfactor);
    }
  }

  /**
   * The truncated running sum lies within one per usable chunk below the
   * exact sum of the implied intervals, and never above it.
   */
  lemma TallyWithinCountOfExactSum(cs: seq<Class>)
    requires WellFormedClasses(cs)
    ensures var acc := Tally(cs);
            SumReal(UsableImplied(cs)) - acc.usableCount as real <= acc.usableSum as real <= SumReal(UsableImplied(cs))
  {
    SumFloorWithinLength(UsableImplied(cs));
  }

  /** Truncating each term loses less than one per term. */
  lemma {:induction false} SumFloorWithinLength(xs: seq<real>)
    ensures SumReal(xs) - |xs| as real <= SumFloor(xs) as real <= SumReal(xs)
    decreases |xs|
  {
    if |xs| > 0 {
      SumFloorWithinLength(xs[..|xs| - 1]);
    }
  }

  /** The accumulators of a window extended by one class are one loop iteration further. */
  lemma TallySnoc(cs: seq<Class>, c: Class)
    requires WellFormedClasses(cs + [c])
    ensures WellFormedClasses(cs)
    ensures Tally(cs + [c]) == Accumulate(Tally(cs), c)
  {
    assert (cs + [c])[..|cs|] == cs;
  }

  /**
   * Each addition truncates on its own: two usable chunks implying 1.5 each
   * sum to 2, not to the truncated exact sum 3.
   */
  lemma TruncationPerChunk()
    ensures Tally([Usable(1.5), Usable(1.5)]).usableSum == 2
  {
    var u := Usable(1.5);
    TallySnoc([], u);
    assert [] + [u] == [u];
    TallySnoc([u], u);
    assert [u] + [u] == [u, u];
  }

  lemma SumRealSnoc(xs: seq<real>, x: real)
    ensures SumReal(xs + [x]) == SumReal(xs) + x
  {
    assert (xs + [x])[..|xs|] == xs;
  }

  lemma SumFloorSnoc(xs: seq<real>, x: real)
    ensures SumFloor(xs + [x]) == SumFloor(xs) + x.Floor
  {
    assert (xs + [x])[..|xs|] == xs;
  }

  lemma SumIntSnoc(xs: seq<int>, x: int)
    ensures SumInt(xs + [x]) == SumInt(xs) + x
  {
    assert (xs + [x])[..|xs|] == xs;
  }

  /**
   * Adding a real to an integer and truncating loses less than one; a
   * non-negative addend never decreases it; and the result is the integer
   * plus the truncated addend.
   */
  lemma TruncatedAddBounds(a: int, x: real)
    ensures a as real + x - 1.0 < (a as real + x).Floor as real <= a as real + x
    ensures x >= 0.0 ==> a <= (a as real + x).Floor
    ensures (a as real + x).Floor == a + x.Floor
  {
  }

  // ---------------------------------------------------------------------
  // The candidate interval and hysteresis
  // ---------------------------------------------------------------------

  predicate WellFormedAcc(acc: Acc) {
    && 0 <= acc.usableSum
    && acc.undersizedSum >= acc.undersizedCount
    && (acc.undersizedCount > 0 ==> acc.undersizedFillfactor > 0.0)
  }

  /** The boost path's exact (untruncated) interval `avg_interval * (0.165 / avg_fillfactor)`, always positive. */
  function BoostedInterval(acc: Acc): (r: real)
    requires WellFormedAcc(acc) && acc.undersizedCount > 0
    ensures r > 0.0
  {
    var avgFillfactor := acc.undersizedFillfactor / acc.undersizedCount as real;
    var incrFactor := UNDERSIZED_FILLFACTOR_THRESH / avgFillfactor;
    var avgInterval := TruncDiv(acc.undersizedSum, acc.undersizedCount);
    TruncDivAtLeastOne(acc.undersizedSum, acc.undersizedCount);
    BoostFactorFacts(acc.undersizedFillfactor, acc.undersizedCount as real, avgInterval as real);
    avgInterval as real * incrFactor
  }

  /**
   * The boost only ever widens: while the mean fillfactor of the undersized
   * chunks is at most the 0.165 it aims for, the boosted interval is at
   * least their average slice.
   */
  lemma BoostNeverShrinks(acc: Acc)
    requires WellFormedAcc(acc) && acc.undersizedCount > 0
    requires acc.undersizedFillfactor <= UNDERSIZED_FILLFACTOR_THRESH * acc.undersizedCount as real
    ensures TruncDiv(acc.undersizedSum, acc.undersizedCount) as real <= BoostedInterval(acc)
  {
    TruncDivAtLeastOne(acc.undersizedSum, acc.undersizedCount);
    BoostedIntervalUnfold(acc);
    BoostFactorAtLeastOne(acc.undersizedFillfactor, acc.undersizedCount as real,
                          TruncDiv(acc.undersizedSum, acc.undersizedCount), BoostedInterval(acc));
  }

  lemma BoostedIntervalUnfold(acc: Acc)
    requires WellFormedAcc(acc) && acc.undersizedCount > 0
    ensures BoostedInterval(acc) ==
            TruncDiv(acc.undersizedSum, acc.undersizedCount) as real *
            (UNDERSIZED_FILLFACTOR_THRESH / (acc.undersizedFillfactor / acc.undersizedCount as real))
  {
  }

  /** A dividend at least the divisor has a quotient of at least one. */
  lemma TruncDivAtLeastOne(a: int, b: int)
    requires 0 < b <= a
    ensures TruncDiv(a, b) >= 1
  {
    var q := TruncDiv(a, b);
    assert b * q + b > a >= b;
  }

  /** The boost multiplies a positive interval by a positive factor. */
  lemma BoostFactorFacts(sum: real, n: real, interval: real)
    requires sum > 0.0 && n > 0.0 && interval >= 1.0
    ensures interval * (UNDERSIZED_FILLFACTOR_THRESH / (sum / n)) > 0.0
  {
    DivLeIff(sum, 0.0, n);
    var incr := UNDERSIZED_FILLFACTOR_THRESH / (sum / n);
    DivLeIff(UNDERSIZED_FILLFACTOR_THRESH, 0.0, sum / n);
    ScaleStrict(0.0, incr, interval);
  }

  /** The boost factor is at least 1 when the mean fillfactor is at most 0.165. */
  lemma BoostFactorAtLeastOne(sum: real, n: real, interval: int, boosted: real)
    requires sum > 0.0 && n > 0.0 && interval >= 1
    requires sum <= UNDERSIZED_FILLFACTOR_THRESH * n
    requires boosted == interval as real * (UNDERSIZED_FILLFACTOR_THRESH / (sum / n))
    ensures interval as real <= boosted
  {
    var avg := sum / n;
    DivLeIff(sum, 0.0, n);
    DivLeIff(sum, UNDERSIZED_FILLFACTOR_THRESH, n);
    LeDivIff(1.0, UNDERSIZED_FILLFACTOR_THRESH, avg);
    ScaleMonotone(1.0, UNDERSIZED_FILLFACTOR_THRESH / avg, interval as real);
  }

  /**
   * The new interval the accumulators suggest, or `None` when there is no
   * evidence. With usable chunks it is their truncated mean and undersized
   * chunks do not matter; only without usable chunks and with more than one
   * undersized chunk is the boost used.
   */
  function CandidateInterval(acc: Acc): (r: Option<int>)
    requires WellFormedAcc(acc)
    ensures r.None? <==> acc.usableCount == 0 && acc.undersizedCount <= NUM_UNDERSIZED_INTERVALS
    ensures acc.usableCount > 0 ==>
              r.Some? && acc.usableCount * r.value <= acc.usableSum < acc.usableCount * (r.value + 1)
    ensures acc.usableCount == 0 && acc.undersizedCount > NUM_UNDERSIZED_INTERVALS ==>
              r.Some? && r.value as real <= BoostedInterval(acc) < r.value as real + 1.0
    ensures r.Some? ==> r.value >= 0
  {
    if acc.usableCount == 0 && acc.undersizedCount > NUM_UNDERSIZED_INTERVALS then
      Some(BoostedInterval(acc).Floor)
    else if acc.usableCount == 0 then None
    else Some(TruncDiv(acc.usableSum, acc.usableCount))
  }

  function AbsReal(x: real): real {
    if x < 0.0 then -x else x
  }

  /** `fabs(1.0 - candidate / current)`. */
  function RelativeChange(candidate: int, current: int): (d: real)
    requires current > 0
    ensures d >= 0.0
    ensures d == 0.0 <==> candidate == current
  {
    assert candidate as real / current as real == 1.0 <==> candidate == current by {
      assert (candidate as real / current as real) * current as real == candidate as real;
    }
    AbsReal(1.0 - candidate as real / current as real)
  }

  /** The hysteresis step: keep the current interval unless the candidate differs by more than 15%. */
  function ApplyHysteresis(current: int, candidate: int): (r: int)
    requires current > 0
    ensures r == current || r == candidate
    ensures r == current <==> RelativeChange(candidate, current) <= INTERVAL_MIN_CHANGE_THRESH
  {
    if RelativeChange(candidate, current) <= INTERVAL_MIN_CHANGE_THRESH then current
    else
      assert candidate != current;
      candidate
  }

  /** The 15% band in integer terms: a candidate is kept out exactly when it lies within ±15% of the current interval. */
  lemma HysteresisBand(current: int, candidate: int)
    requires current > 0
    ensures RelativeChange(candidate, current) <= INTERVAL_MIN_CHANGE_THRESH <==>
            85 * current <= 100 * candidate <= 115 * current
  {
    var c := current as real;
    var x := candidate as real;
    var q := x / c;
    assert RelativeChange(candidate, current) <= INTERVAL_MIN_CHANGE_THRESH <==> 0.85 <= q && q <= 1.15;
    assert 0.85 <= q <==> 0.85 * c <= x by {
      LeDivIff(0.85, x, c);
    }
    assert q <= 1.15 <==> x <= 1.15 * c by {
      DivLeIff(x, 1.15, c);
    }
    assert 0.85 * c <= x <==> 85 * current <= 100 * candidate;
    assert x <= 1.15 * c <==> 100 * candidate <= 115 * current;
  }

  /** `y <= x / c` exactly when `y * c <= x`, for positive `c`. */
  lemma LeDivIff(y: real, x: real, c: real)
    requires c > 0.0
    ensures y <= x / c <==> y * c <= x
  {
    ScaleMonotone(y, x / c, c);
  }

  /** `x / c <= y` exactly when `x <= y * c`, for positive `c`. */
  lemma DivLeIff(x: real, y: real, c: real)
    requires c > 0.0
    ensures x / c <= y <==> x <= y * c
  {
    ScaleMonotone(x / c, y, c);
  }

  /** Multiplying both sides by a positive factor keeps a non-strict order. */
  lemma ScaleMonotone(a: real, b: real, c: real)
    requires c > 0.0
    ensures a <= b <==> a * c <= b * c
  {
    if a <= b {
      assert (b - a) * c >= 0.0;
    } else {
      assert (a - b) * c > 0.0;
    }
  }

  // ---------------------------------------------------------------------
  // The estimate
  // ---------------------------------------------------------------------

  /** The number of usable chunks in a window. */
  function UsableCount(window: seq<ChunkSample>, target: int): nat
    requires ValidWindow(window) && target > 0
  {
    |UsableImplied(ClassifyWindow(window, target))|
  }

  /** The number of undersized chunks in a window. */
  function UndersizedCount(window: seq<ChunkSample>, target: int): nat
    requires ValidWindow(window) && target > 0
  {
    |UndersizedSlices(ClassifyWindow(window, target))|
  }

  /**
   * The accumulators after the window loop: the counts of usable and
   * undersized chunks, the sum of the truncated implied intervals, and the
   * exact sums of the undersized slices and fillfactors.
   */
  function WindowTally(window: seq<ChunkSample>, target: int): (acc: Acc)
    requires ValidWindow(window) && target > 0
    ensures WellFormedAcc(acc)
    ensures acc.usableCount == UsableCount(window, target)
    ensures acc.undersizedCount == UndersizedCount(window, target)
    ensures acc.usableSum == SumFloor(UsableImplied(ClassifyWindow(window, target)))
    ensures acc.undersizedSum == SumInt(UndersizedSlices(ClassifyWindow(window, target)))
    ensures acc.undersizedFillfactor == SumReal(UndersizedFillfactors(ClassifyWindow(window, target)))
  {
    var cs := ClassifyWindow(window, target);
    assert WellFormedClasses(cs);
    Tally(cs)
  }

  /** One more chunk at the end of the window is one more iteration of the loop. */
  lemma WindowTallySnoc(window: seq<ChunkSample>, s: ChunkSample, target: int)
    requires ValidWindow(window + [s]) && target > 0
    ensures ValidWindow(window) && ValidSample(s)
    ensures WindowTally(window + [s], target) == Accumulate(WindowTally(window, target), Classify(s, target))
  {
    var w := window + [s];
    assert w[..|w| - 1] == window;
    assert w[|w| - 1] == s;
    var cs := ClassifyWindow(window, target);
    assert ClassifyWindow(w, target) == cs + [Classify(s, target)];
    assert WellFormedClasses(cs + [Classify(s, target)]);
    TallySnoc(cs, Classify(s, target));
  }

  /**
   * `calculate_chunk_interval` once the window and the current interval are
   * known: the current interval when there is no evidence, otherwise the
   * candidate after hysteresis.
   */
  function EstimateInterval(current: int, target: int, window: seq<ChunkSample>): (r: int)
    requires current > 0 && target > 0 && ValidWindow(window)
    ensures UsableCount(window, target) == 0 && UndersizedCount(window, target) <= NUM_UNDERSIZED_INTERVALS ==>
              r == current
    ensures CandidateInterval(WindowTally(window, target)).Some? ==>
              var candidate := CandidateInterval(WindowTally(window, target)).value;
              (r == current <==> RelativeChange(candidate, current) <= INTERVAL_MIN_CHANGE_THRESH) &&
              (r == current || r == candidate)
    ensures r >= 0
  {
    match CandidateInterval(WindowTally(window, target))
    case None => current
    case Some(candidate) => ApplyHysteresis(current, candidate)
  }

  // ---------------------------------------------------------------------
  // Properties of the estimate
  // ---------------------------------------------------------------------

  /** A chunk filled edge to edge at exactly the target size implies its own slice width. */
  lemma ExactFitImpliesSliceWidth(s: ChunkSample, target: int)
    requires ValidSample(s) && target > 0 && s.minmax.Some?
    requires IntervalFillfactor(s) == 1.0 && SizeFillfactor(s, target) == 1.0
    ensures Classify(s, target) == Usable(SliceInterval(s) as real)
  {
  }

  /**
   * Growing a usable chunk's size, all else fixed, never grows the interval
   * it implies: a fuller chunk asks for a narrower next interval.
   */
  lemma ImpliedIntervalAntitone(s: ChunkSample, bigger: int, target: int)
    requires ValidSample(s) && target > 0 && s.size <= bigger
    requires Classify(s, target).Usable?
    ensures ValidSample(s.(size := bigger))
    ensures Classify(s.(size := bigger), target).Usable?
    ensures Classify(s.(size := bigger), target).implied <= Classify(s, target).implied
  {
    var t := s.(size := bigger);
    ExtrapolationMonotone(s, bigger);
    SizeFillfactorMonotone(s, t, target);
    FullerImpliesNarrower(s, t, target);
  }

  /** Of two dense chunks over the same slice, the one with the larger size fillfactor implies the narrower interval. */
  lemma FullerImpliesNarrower(s: ChunkSample, t: ChunkSample, target: int)
    requires ValidSample(s) && ValidSample(t) && target > 0 && SliceInterval(s) == SliceInterval(t)
    requires Classify(s, target).Usable? && t.minmax.Some? && IntervalFillfactor(t) == IntervalFillfactor(s)
    requires SizeFillfactor(s, target) <= SizeFillfactor(t, target)
    ensures Classify(t, target).Usable?
    ensures Classify(t, target).implied <= Classify(s, target).implied
  {
    FullerStaysUsable(s, t, target);
    ImpliedTimesFillfactor(s, target, Classify(s, target).implied, SizeFillfactor(s, target));
    ImpliedTimesFillfactor(t, target, Classify(t, target).implied, SizeFillfactor(t, target));
    InverseAntitone(Classify(s, target).implied, Classify(t, target).implied,
                    SizeFillfactor(s, target), SizeFillfactor(t, target), SliceInterval(s) as real);
  }

  /** A chunk with the same interval fillfactor as a usable one and at least its size fillfactor is usable. */
  lemma FullerStaysUsable(s: ChunkSample, t: ChunkSample, target: int)
    requires ValidSample(s) && ValidSample(t) && target > 0
    requires Classify(s, target).Usable? && t.minmax.Some? && IntervalFillfactor(t) == IntervalFillfactor(s)
    requires SizeFillfactor(s, target) <= SizeFillfactor(t, target)
    ensures Classify(t, target).Usable?
  {
  }

  /** A usable chunk's implied interval times its size fillfactor is its slice. */
  lemma ImpliedTimesFillfactor(s: ChunkSample, target: int, implied: real, sff: real)
    requires ValidSample(s) && target > 0 && Classify(s, target).Usable?
    requires implied == Classify(s, target).implied && sff == SizeFillfactor(s, target)
    ensures implied * sff == SliceInterval(s) as real
  {
  }

  /** A bigger chunk with the same data span extrapolates to at least as much. */
  lemma ExtrapolationMonotone(s: ChunkSample, bigger: int)
    requires ValidSample(s) && s.minmax.Some? && IntervalFillfactor(s) > 0.0 && s.size <= bigger
    ensures ValidSample(s.(size := bigger))
    ensures IntervalFillfactor(s.(size := bigger)) == IntervalFillfactor(s)
    ensures ExtrapolatedChunkSize(s) <= ExtrapolatedChunkSize(s.(size := bigger))
  {
    DivideMonotone(s.size as real, bigger as real, IntervalFillfactor(s));
  }

  /** A larger extrapolated size gives a larger size fillfactor against the same target. */
  lemma SizeFillfactorMonotone(s: ChunkSample, t: ChunkSample, target: int)
    requires ValidSample(s) && s.minmax.Some? && IntervalFillfactor(s) > 0.0
    requires ValidSample(t) && t.minmax.Some? && IntervalFillfactor(t) > 0.0
    requires target > 0 && ExtrapolatedChunkSize(s) <= ExtrapolatedChunkSize(t)
    ensures SizeFillfactor(s, target) <= SizeFillfactor(t, target)
  {
    DivideMonotone(ExtrapolatedChunkSize(s) as real, ExtrapolatedChunkSize(t) as real, target as real);
  }

  /** Two intervals implied for one slice: the larger fillfactor implies the smaller interval. */
  lemma InverseAntitone(x: real, y: real, a: real, b: real, slice: real)
    requires 0.0 < a <= b && 0.0 < y
    requires x * a == slice && y * b == slice
    ensures y <= x
  {
    if y > x {
      ScaleStrict(x, y, a);
      ScaleMonotone(a, b, y);
    }
  }

  lemma DivideMonotone(a: real, b: real, c: real)
    requires c > 0.0 && a <= b
    ensures a / c <= b / c
  {
    ScaleMonotone(a / c, b / c, c);
  }

  lemma ScaleStrict(a: real, b: real, c: real)
    requires c > 0.0 && a < b
    ensures a * c < b * c
  {
    assert (b - a) * c > 0.0;
  }

  /**
   * The estimate is not always positive: a tiny slice holding far more data
   * than the target implies an interval below one, which truncates to zero
   * and is adopted.
   */
  lemma EstimateCanBeZero()
    ensures EstimateInterval(100, 1, [ChunkSample(1000, 0, 3, Some((0, 2)))]) == 0
  {
    var s := ChunkSample(1000, 0, 3, Some((0, 2)));
    assert IntervalFillfactor(s) == 2.0 / 3.0;
    assert ExtrapolatedChunkSize(s) == 1500;
    assert Classify(s, 1) == Usable(3.0 / 1500.0);
    assert ClassifyWindow([s], 1) == [Usable(3.0 / 1500.0)];
  }

  /** A window of one usable chunk: the candidate is the chunk's implied interval, truncated. */
  lemma OneUsableChunk(current: int, target: int, s: ChunkSample)
    requires current > 0 && target > 0 && ValidSample(s)
    requires Classify(s, target).Usable?
    ensures EstimateInterval(current, target, [s]) == ApplyHysteresis(current, Classify(s, target).implied.Floor)
  {
    var c := Classify(s, target);
    assert ClassifyWindow([s], target) == [c];
    TallySnoc([], c);
    var acc := WindowTally([s], target);
    assert acc == Acc(c.implied.Floor, 1, 0, 0.0, 0);
    assert CandidateInterval(acc) == Some(c.implied.Floor);
  }

  /** A day-wide chunk at 120% of a 100 MB target: the implied 72000 is more than 15% off, so it is adopted. */
  lemma DayChunkOverTargetShrinks()
    ensures EstimateInterval(86400, 100000000, [ChunkSample(120000000, 0, 86400, Some((0, 86400)))]) == 72000
  {
    var s := ChunkSample(120000000, 0, 86400, Some((0, 86400)));
    assert IntervalFillfactor(s) == 1.0;
    assert ExtrapolatedChunkSize(s) == 120000000;
    assert SizeFillfactor(s, 100000000) == 1.2;
    assert Classify(s, 100000000) == Usable(72000.0);
    OneUsableChunk(86400, 100000000, s);
    HysteresisBand(86400, 72000);
  }

  /** The same chunk at 108% of the target implies 80000, within 15%, so the interval stays 86400. */
  lemma DayChunkNearTargetKept()
    ensures EstimateInterval(86400, 100000000, [ChunkSample(108000000, 0, 86400, Some((0, 86400)))]) == 86400
  {
    var s := ChunkSample(108000000, 0, 86400, Some((0, 86400)));
    assert IntervalFillfactor(s) == 1.0;
    assert ExtrapolatedChunkSize(s) == 108000000;
    assert SizeFillfactor(s, 100000000) == 1.08;
    assert Classify(s, 100000000) == Usable(80000.0);
    OneUsableChunk(86400, 100000000, s);
    HysteresisBand(86400, 80000);
  }

  /**
   * A chunk whose data span, 95, is wider than its slice of 10: the
   * interval fillfactor 9.5 passes the 0.5 test, the extrapolated size is
   * 105 and the size fillfactor 1.05, so the chunk is usable and implies an
   * interval of 10 / 1.05, truncated to 9, which is adopted over 20.
   */
  lemma WideSpanChunkEstimate()
    ensures EstimateInterval(20, 100, [ChunkSample(1000, 0, 10, Some((5, 100)))]) == 9
  {
    var s := ChunkSample(1000, 0, 10, Some((5, 100)));
    assert IntervalFillfactor(s) == 9.5;
    assert 105.0 <= 1000.0 / 9.5 < 106.0;
    assert ExtrapolatedChunkSize(s) == 105;
    assert SizeFillfactor(s, 100) == 1.05;
    assert Classify(s, 100) == Usable(10.0 / 1.05);
    assert 9.0 <= 10.0 / 1.05 < 10.0;
    OneUsableChunk(20, 100, s);
    HysteresisBand(20, 9);
  }

  /** A window of one ignored chunk keeps the current interval. */
  lemma LoneIgnoredKeepsInterval(current: int, target: int, s: ChunkSample)
    requires current > 0 && target > 0 && ValidSample(s)
    requires Classify(s, target).Ignored?
    ensures EstimateInterval(current, target, [s]) == current
  {
    assert ClassifyWindow([s], target) == [Ignored];
  }

  /** A single undersized chunk is not trusted: the boost needs at least two. */
  lemma SingleUndersizedKeepsInterval(current: int, target: int, s: ChunkSample)
    requires current > 0 && target > 0 && ValidSample(s)
    requires Classify(s, target).Undersized?
    ensures EstimateInterval(current, target, [s]) == current
  {
    assert ClassifyWindow([s], target) == [Classify(s, target)];
  }

  /** Two equal undersized chunks at 10% of the target get their interval boosted by 1.65. */
  lemma TwoUndersizedChunksBoost()
    ensures var s := ChunkSample(10000000, 0, 1000, Some((0, 1000)));
            EstimateInterval(1000, 100000000, [s, s]) == 1650
  {
    var s := ChunkSample(10000000, 0, 1000, Some((0, 1000)));
    var u := Undersized(1000, 0.1);
    assert Classify(s, 100000000) == u by {
      TenthOfTargetUndersized();
    }
    assert ClassifyWindow([s, s], 100000000) == [u, u];
    var acc := Acc(0, 0, 2000, 0.2, 2);
    assert Tally([u, u]) == acc by {
      TallyTwoTenths();
    }
    assert CandidateInterval(acc) == Some(1650) by {
      BoostOfTwoTenths();
    }
    HysteresisBand(1000, 1650);
  }

  /** Two undersized slices of 1000 at fillfactor 0.1 accumulate to a sum of 2000 and a fillfactor of 0.2. */
  lemma TallyTwoTenths()
    ensures WellFormedClasses([Undersized(1000, 0.1), Undersized(1000, 0.1)])
    ensures Tally([Undersized(1000, 0.1), Undersized(1000, 0.1)]) == Acc(0, 0, 2000, 0.2, 2)
  {
    TallyTwoUndersized(Undersized(1000, 0.1));
  }

  /** Two equal undersized chunks: the slice and the fillfactor counted twice. */
  lemma TallyTwoUndersized(u: Class)
    requires u.Undersized? && WellFormedClass(u)
    ensures WellFormedClasses([u, u])
    ensures Tally([u, u]) == Acc(0, 0, u.slice + u.slice, u.sizeFillfactor + u.sizeFillfactor, 2)
  {
    TallySingle(u);
    var uu := [u] + [u];
    assert uu == [u, u];
    TallySnoc([u], u);
  }

  /** A window of one class is one loop iteration from the zero accumulators. */
  lemma TallySingle(c: Class)
    requires WellFormedClass(c)
    ensures WellFormedClasses([c])
    ensures Tally([c]) == Accumulate(Acc(0, 0, 0, 0.0, 0), c)
  {
    var empty: seq<Class> := [];
    assert empty + [c] == [c];
    TallySnoc(empty, c);
  }

  /** A full slice of 1000 holding a tenth of the target is undersized. */
  lemma TenthOfTargetUndersized()
    ensures var s := ChunkSample(10000000, 0, 1000, Some((0, 1000)));
            ValidSample(s) && Classify(s, 100000000) == Undersized(1000, 0.1)
  {
    var s := ChunkSample(10000000, 0, 1000, Some((0, 1000)));
    assert IntervalFillfactor(s) == 1.0;
    assert ExtrapolatedChunkSize(s) == 10000000;
    assert SizeFillfactor(s, 100000000) == 0.1;
  }

  /** Two undersized slices of 1000 at fillfactor 0.1 each boost to 1000 * 0.165 / 0.1. */
  lemma BoostOfTwoTenths()
    ensures CandidateInterval(Acc(0, 0, 2000, 0.2, 2)) == Some(1650)
  {
    var acc := Acc(0, 0, 2000, 0.2, 2);
    assert TruncDiv(2000, 2) == 1000;
    assert acc.undersizedFillfactor / acc.undersizedCount as real == 0.1;
    assert UNDERSIZED_FILLFACTOR_THRESH / 0.1 == 1.65;
    assert BoostedInterval(acc) == 1650.0;
  }
}

=== FILE: memory_budget.dfy ===
/**
 * The memory-budget estimator of adaptive chunking: how much memory is
 * available for caching chunks, and the initial chunk target size derived
 * from it.
 *
 * Configuration reads (`GetConfigOption`), the GUC integer parser
 * (`parse_int` with block units) and the operating-system memory query are
 * not modelled; they arrive as a `MemoryConfig` value and a `BlockParser`
 * oracle.
 */
module MemoryBudget {
  import opened Wrappers
  import opened CInt

  /** PostgreSQL's block size in bytes (the default build). */
  const BLCKSZ: int := 8192

  /** How many chunks are expected to fit in cache memory at the same time. */
  const DEFAULT_NUM_CHUNKS_TO_FIT_IN_CACHE_MEM: int := 4

  datatype Error =
    | InvalidMemoryAmount          // a NULL memory amount
    | InvalidDataAmount            // a memory amount that does not parse
    | MissingConfig(setting: string)
    | InvalidConfig(setting: string)

  /**
   * `parse_int(text, &n, GUC_UNIT_BLOCKS, ...)`: the number of blocks a
   * memory setting denotes, or `None` when the text does not parse.
   */
  type BlockParser = string -> Option<Int32>

  /**
   * Everything the estimate reads from its environment: the test override
   * (`fixed_effective_memory_cache_size`, -1 when unset), the system memory
   * in bytes, and the raw `shared_buffers` and `effective_cache_size`
   * settings (`None` when the setting is missing).
   */
  datatype MemoryConfig = MemoryConfig(
    fixedOverride: int,
    systemMemory: int,
    sharedBuffers: Option<string>,
    effectiveCacheSize: Option<string>)

  predicate WellFormedConfig(cfg: MemoryConfig) {
    InInt64(cfg.fixedOverride) && InInt64(cfg.systemMemory)
  }

  /** A memory amount in blocks converted to bytes; the product always fits in 64 bits. */
  function ConvertTextMemoryAmountToBytes(amount: Option<string>, parse: BlockParser): (r: Result<int, Error>)
    ensures amount.None? ==> r == Err(InvalidMemoryAmount)
    ensures amount.Some? && parse(amount.value).None? ==> r == Err(InvalidDataAmount)
    ensures r.Ok? ==> amount.Some? && parse(amount.value).Some?
    ensures amount.Some? && parse(amount.value).Some? ==> r == Ok(parse(amount.value).value * BLCKSZ)
    ensures r.Ok? ==> r.value % BLCKSZ == 0 && r.value / BLCKSZ == parse(amount.value).value
    ensures r.Ok? ==> InInt64(r.value)
  {
    if amount.None? then Err(InvalidMemoryAmount)
    else
      match parse(amount.value)
      case None => Err(InvalidDataAmount)
      case Some(nblocks) => Ok(nblocks * BLCKSZ)
  }

  /**
   * `set_effective_memory_cache_size`: the new value of the test override,
   * which replaces `fixedOverride` in the configuration.
   */
  function SetEffectiveMemoryCacheSize(cfg: MemoryConfig, amount: string, parse: BlockParser): (r: Result<MemoryConfig, Error>)
    ensures r.Ok? <==> parse(amount).Some?
    ensures r.Ok? ==> r.value.fixedOverride == parse(amount).value * BLCKSZ
    ensures r.Ok? ==> r.value.(fixedOverride := cfg.fixedOverride) == cfg
  {
    var bytes :- ConvertTextMemoryAmountToBytes(Some(amount), parse);
    Ok(cfg.(fixedOverride := bytes))
  }

  /** One block-valued setting: missing and unparsable settings are configuration errors. */
  function ReadBlockSetting(name: string, setting: Option<string>, parse: BlockParser): (r: Result<Int32, Error>)
    ensures setting.None? <==> r == Err(MissingConfig(name))
    ensures setting.Some? && parse(setting.value).None? <==> r == Err(InvalidConfig(name))
    ensures r.Ok? ==> setting.Some? && parse(setting.value) == Some(r.value)
    ensures setting.Some? && parse(setting.value).Some? ==> r == Ok(parse(setting.value).value)
  {
    match setting
    case None => Err(MissingConfig(name))
    case Some(text) =>
      match parse(text)
      case None => Err(InvalidConfig(name))
      case Some(n) => Ok(n)
  }

  /**
   * The larger of `shared_buffers` and `effective_cache_size`, in blocks,
   * with the errors reported in the order the settings are read.
   */
  function ConfiguredCacheBlocks(cfg: MemoryConfig, parse: BlockParser): (r: Result<int, Error>)
    ensures ReadBlockSetting("shared_buffers", cfg.sharedBuffers, parse).Err? ==>
              r == ReadBlockSetting("shared_buffers", cfg.sharedBuffers, parse).PropagateFailure()
    ensures ReadBlockSetting("shared_buffers", cfg.sharedBuffers, parse).Ok? &&
            ReadBlockSetting("effective_cache_size", cfg.effectiveCacheSize, parse).Err? ==>
              r == ReadBlockSetting("effective_cache_size", cfg.effectiveCacheSize, parse).PropagateFailure()
    ensures r.Ok? <==>
              ReadBlockSetting("shared_buffers", cfg.sharedBuffers, parse).Ok? &&
              ReadBlockSetting("effective_cache_size", cfg.effectiveCacheSize, parse).Ok?
    ensures r.Ok? ==>
              var sb := ReadBlockSetting("shared_buffers", cfg.sharedBuffers, parse).value;
              var ecs := ReadBlockSetting("effective_cache_size", cfg.effectiveCacheSize, parse).value;
              sb <= r.value && ecs <= r.value && (r.value == sb || r.value == ecs)
  {
    var sharedBuffers :- ReadBlockSetting("shared_buffers", cfg.sharedBuffers, parse);
    var effectiveCacheSize :- ReadBlockSetting("effective_cache_size", cfg.effectiveCacheSize, parse);
    Ok(if sharedBuffers >= effectiveCacheSize then sharedBuffers else effectiveCacheSize)
  }

  /** Half of the system memory, the upper bound of the estimate. */
  function SysmemBound(cfg: MemoryConfig): (b: int)
    ensures 0 <= cfg.systemMemory ==> 0 <= b && 2 * b <= cfg.systemMemory < 2 * b + 2
    ensures cfg.systemMemory < 0 ==> b <= 0 && 2 * b - 2 < cfg.systemMemory <= 2 * b
  {
    TruncDiv(cfg.systemMemory, 2)
  }

  /**
   * `estimate_effective_memory_cache_size`: a positive override is returned
   * as is; otherwise the larger configured cache size in bytes, capped at
   * half the system memory.
   */
  function EstimateEffectiveMemoryCacheSize(cfg: MemoryConfig, parse: BlockParser): (r: Result<int, Error>)
    requires WellFormedConfig(cfg)
    ensures cfg.fixedOverride > 0 ==> r == Ok(cfg.fixedOverride)
    ensures cfg.fixedOverride <= 0 && ConfiguredCacheBlocks(cfg, parse).Err? ==>
              r == ConfiguredCacheBlocks(cfg, parse).PropagateFailure()
    ensures cfg.fixedOverride <= 0 && ConfiguredCacheBlocks(cfg, parse).Ok? ==>
              var bytes := ConfiguredCacheBlocks(cfg, parse).value * BLCKSZ;
              r.Ok? && r.value <= bytes && r.value <= SysmemBound(cfg) &&
              (r.value == bytes || r.value == SysmemBound(cfg))
    ensures r.Ok? ==> InInt64(r.value)
  {
    var sysmemBoundBytes := SysmemBound(cfg);
    if cfg.fixedOverride > 0 then Ok(cfg.fixedOverride)
    else
      var blocks :- ConfiguredCacheBlocks(cfg, parse);
      var memoryBytes := blocks * BLCKSZ;
      Ok(if memoryBytes > sysmemBoundBytes then sysmemBoundBytes else memoryBytes)
  }

  /**
   * `calculate_initial_chunk_target_size`: a quarter of the estimate, with
   * C's truncating division.
   */
  function CalculateInitialChunkTargetSize(cfg: MemoryConfig, parse: BlockParser): (r: Result<int, Error>)
    requires WellFormedConfig(cfg)
    ensures r.Ok? <==> EstimateEffectiveMemoryCacheSize(cfg, parse).Ok?
    ensures r.Err? ==> r == EstimateEffectiveMemoryCacheSize(cfg, parse).PropagateFailure()
    ensures r.Ok? ==>
              var e := EstimateEffectiveMemoryCacheSize(cfg, parse).value;
              (0 <= e ==> 4 * r.value <= e < 4 * r.value + 4) &&
              (e < 0 ==> 4 * r.value - 4 < e <= 4 * r.value)
  {
    var estimate :- EstimateEffectiveMemoryCacheSize(cfg, parse);
    Ok(TruncDiv(estimate, DEFAULT_NUM_CHUNKS_TO_FIT_IN_CACHE_MEM))
  }

  /** Without an override, two readable settings always give an estimate. */
  lemma ReadableSettingsGiveEstimate(cfg: MemoryConfig, parse: BlockParser)
    requires WellFormedConfig(cfg)
    requires cfg.sharedBuffers.Some? && parse(cfg.sharedBuffers.value).Some?
    requires cfg.effectiveCacheSize.Some? && parse(cfg.effectiveCacheSize.value).Some?
    ensures EstimateEffectiveMemoryCacheSize(cfg, parse).Ok?
    ensures CalculateInitialChunkTargetSize(cfg, parse).Ok?
  {
  }

  /** After the test hook stores a positive amount, the estimate is exactly that amount. */
  lemma OverrideIsReturnedVerbatim(cfg: MemoryConfig, amount: string, parse: BlockParser)
    requires WellFormedConfig(cfg)
    requires parse(amount).Some? && parse(amount).value > 0
    ensures SetEffectiveMemoryCacheSize(cfg, amount, parse).Ok?
    ensures var cfg' := SetEffectiveMemoryCacheSize(cfg, amount, parse).value;
            WellFormedConfig(cfg') &&
            EstimateEffectiveMemoryCacheSize(cfg', parse) == Ok(parse(amount).value * BLCKSZ)
  {
  }

  /** A positive override wins even when it exceeds half the system memory. */
  lemma OverrideBypassesSysmemBound()
    ensures var cfg := MemoryConfig(0x1_0000_0000, 0x1000, None, None);
            var parse: BlockParser := (s: string) => None;
            EstimateEffectiveMemoryCacheSize(cfg, parse) == Ok(0x1_0000_0000) &&
            0x1_0000_0000 > SysmemBound(cfg)
  {
  }
}

=== FILE: minmax.dfy ===
/**
 * The value-range locator: the least and greatest value of the dimension
 * column inside one chunk, found through an index whose leading column is
 * the dimension column or, failing that, by a full heap scan.
 *
 * Scans are modelled by the values they yield: a heap scan by the column
 * value of every row (`None` for NULL), an index by its keys in index order.
 * The type's comparison function is modelled by the order on `int`.
 */
module MinMax {
  import opened Wrappers

  /** The tri-state outcome of a min/max lookup. */
  datatype MinMaxResult = NoIndex | NoTuples | Found(slot0: int, slot1: int)

  // ---------------------------------------------------------------------
  // Heap scan
  // ---------------------------------------------------------------------

  predicate HasValue(rows: seq<Option<int>>) {
    exists i :: 0 <= i < |rows| && rows[i].Some?
  }

  predicate Occurs(v: int, rows: seq<Option<int>>) {
    exists i :: 0 <= i < |rows| && rows[i] == Some(v)
  }

  predicate IsLowerBound(v: int, rows: seq<Option<int>>) {
    forall i :: 0 <= i < |rows| && rows[i].Some? ==> v <= rows[i].value
  }

  predicate IsUpperBound(v: int, rows: seq<Option<int>>) {
    forall i :: 0 <= i < |rows| && rows[i].Some? ==> rows[i].value <= v
  }

  predicate IsLeast(v: int, rows: seq<Option<int>>) {
    Occurs(v, rows) && IsLowerBound(v, rows)
  }

  predicate IsGreatest(v: int, rows: seq<Option<int>>) {
    Occurs(v, rows) && IsUpperBound(v, rows)
  }

  /** The heap scan's `minmax` slots; `None` is a slot whose `nulls` flag is set. */
  datatype Slots = Slots(min: Option<int>, max: Option<int>)

  /** One iteration of the scan loop: NULLs are skipped, each slot takes a strictly better value. */
  function HeapScanStep(s: Slots, row: Option<int>): (t: Slots)
    ensures row.None? ==> t == s
    ensures row.Some? ==> t.min.Some? && t.max.Some? && t.min.value <= row.value <= t.max.value
    ensures s.min.Some? ==> t.min.Some? && t.min.value <= s.min.value
    ensures s.max.Some? ==> t.max.Some? && t.max.value >= s.max.value
    ensures t.min == s.min || t.min == row
    ensures t.max == s.max || t.max == row
  {
    match row
    case None => s
    case Some(v) =>
      Slots(if s.min.None? || v < s.min.value then Some(v) else s.min,
            if s.max.None? || v > s.max.value then Some(v) else s.max)
  }

  /** The scan loop over all rows, starting from the slots `init`. */
  function HeapScanFold(rows: seq<Option<int>>, init: Slots): (s: Slots)
    ensures s.min.Some? <==> init.min.Some? || HasValue(rows)
    ensures s.max.Some? <==> init.max.Some? || HasValue(rows)
    ensures s.min.Some? ==> IsLowerBound(s.min.value, rows)
    ensures s.max.Some? ==> IsUpperBound(s.max.value, rows)
    ensures s.min.Some? ==> Occurs(s.min.value, rows) || s.min == init.min
    ensures s.max.Some? ==> Occurs(s.max.value, rows) || s.max == init.max
    ensures init.min.Some? ==> s.min.value <= init.min.value
    ensures init.max.Some? ==> s.max.value >= init.max.value
    decreases |rows|
  {
    if |rows| == 0 then init
    else
      var prefix := rows[..|rows| - 1];
      var s' := HeapScanFold(prefix, init);
      PrefixFacts(rows, prefix);
      HeapScanStep(s', rows[|rows| - 1])
  }

  /** What the rows of a sequence share with its prefix without the last row. */
  lemma PrefixFacts(rows: seq<Option<int>>, prefix: seq<Option<int>>)
    requires |rows| > 0 && prefix == rows[..|rows| - 1]
    ensures HasValue(rows) <==> HasValue(prefix) || rows[|rows| - 1].Some?
    ensures forall v :: Occurs(v, prefix) ==> Occurs(v, rows)
    ensures forall v :: IsLowerBound(v, prefix) && (rows[|rows| - 1].Some? ==> v <= rows[|rows| - 1].value)
                        ==> IsLowerBound(v, rows)
    ensures forall v :: IsUpperBound(v, prefix) && (rows[|rows| - 1].Some? ==> rows[|rows| - 1].value <= v)
                        ==> IsUpperBound(v, rows)
    ensures rows[|rows| - 1].Some? ==> Occurs(rows[|rows| - 1].value, rows)
  {
    var n := |rows| - 1;
    if HasValue(rows) && rows[n].None? {
      var i :| 0 <= i < |rows| && rows[i].Some?;
      assert prefix[i] == rows[i];
    }
    forall v | Occurs(v, prefix) ensures Occurs(v, rows) {
      var i :| 0 <= i < |prefix| && prefix[i] == Some(v);
      assert rows[i] == prefix[i];
    }
    forall v | IsLowerBound(v, prefix) && (rows[n].Some? ==> v <= rows[n].value)
      ensures IsLowerBound(v, rows)
    {
      forall i | 0 <= i < |rows| && rows[i].Some? ensures v <= rows[i].value {
        if i < n { assert prefix[i] == rows[i]; }
      }
    }
    forall v | IsUpperBound(v, prefix) && (rows[n].Some? ==> rows[n].value <= v)
      ensures IsUpperBound(v, rows)
    {
      forall i | 0 <= i < |rows| && rows[i].Some? ensures rows[i].value <= v {
        if i < n { assert prefix[i] == rows[i]; }
      }
    }
  }

  /** The verdict at the end of a scan: both slots must have been filled. */
  function ScanResult(s: Slots): (r: MinMaxResult)
    ensures r.Found? <==> s.min.Some? && s.max.Some?
    ensures r.Found? ==> r.slot0 == s.min.value && r.slot1 == s.max.value
    ensures !r.NoIndex?
  {
    if s.min.None? || s.max.None? then NoTuples else Found(s.min.value, s.max.value)
  }

  /**
   * `minmax_heapscan` as written. Its initialiser `{true}` sets only the
   * min slot's NULL flag, so the max slot starts out holding whatever the
   * caller's uninitialised `minmax[1]` contained, here `staleMax`.
   */
  function MinMaxHeapScan(rows: seq<Option<int>>, staleMax: int): (r: MinMaxResult)
    ensures r.NoTuples? <==> !HasValue(rows)
    ensures !r.NoIndex?
    ensures r.Found? ==> IsLeast(r.slot0, rows)
    ensures r.Found? ==> IsUpperBound(r.slot1, rows) && staleMax <= r.slot1
    ensures r.Found? ==> Occurs(r.slot1, rows) || r.slot1 == staleMax
  {
    ScanResult(HeapScanFold(rows, Slots(None, Some(staleMax))))
  }

  /** `minmax_heapscan` with both slots starting unset, as the index scan does. */
  function MinMaxHeapScanIntended(rows: seq<Option<int>>): (r: MinMaxResult)
    ensures r.NoTuples? <==> !HasValue(rows)
    ensures r.Found? <==> HasValue(rows)
    ensures r.Found? ==> IsLeast(r.slot0, rows) && IsGreatest(r.slot1, rows)
  {
    ScanResult(HeapScanFold(rows, Slots(None, None)))
  }

  /** The scan as written reports a maximum that is no value of the chunk. */
  lemma HeapScanStaleMaxSurvives()
    ensures MinMaxHeapScan([Some(5)], 100) == Found(5, 100)
    ensures !IsGreatest(100, [Some(5)])
    ensures MinMaxHeapScanIntended([Some(5)]) == Found(5, 5)
  {
    assert HasValue([Some(5)]);
    assert Occurs(5, [Some(5)]);
  }

  /** When the stale slot lies below some value, the scan as written gives the intended result. */
  lemma HeapScanAgreesBelowStaleMax(rows: seq<Option<int>>, staleMax: int, i: int)
    requires 0 <= i < |rows| && rows[i].Some? && staleMax <= rows[i].value
    ensures MinMaxHeapScan(rows, staleMax) == MinMaxHeapScanIntended(rows)
  {
    var a := MinMaxHeapScan(rows, staleMax);
    var b := MinMaxHeapScanIntended(rows);
    assert a.Found? && b.Found?;
    assert a.slot1 <= b.slot1 && b.slot1 <= a.slot1;
    assert a.slot0 <= b.slot0 && b.slot0 <= a.slot0;
  }

  // ---------------------------------------------------------------------
  // Index scans
  // ---------------------------------------------------------------------

  /**
   * An index of the chunk: whether its leading column is the dimension
   * column (the attribute-number test, kept abstract), and its keys in the
   * order a forward scan returns them.
   */
  datatype IndexDesc = IndexDesc(leadsWithColumn: bool, keys: seq<int>)

  /** The row a backward scan returns first. */
  function BackwardFirst(idx: IndexDesc): (r: Option<int>)
    ensures r.Some? <==> |idx.keys| > 0
    ensures r.Some? ==> r.value in idx.keys
    ensures r.Some? && SortedAscending(idx.keys) ==> forall k :: k in idx.keys ==> k <= r.value
    ensures r.Some? && SortedDescending(idx.keys) ==> forall k :: k in idx.keys ==> r.value <= k
  {
    if |idx.keys| == 0 then None else Some(idx.keys[|idx.keys| - 1])
  }

  /** The row a forward scan returns first. */
  function ForwardFirst(idx: IndexDesc): (r: Option<int>)
    ensures r.Some? <==> |idx.keys| > 0
    ensures r.Some? ==> r.value in idx.keys
    ensures r.Some? && SortedAscending(idx.keys) ==> forall k :: k in idx.keys ==> r.value <= k
    ensures r.Some? && SortedDescending(idx.keys) ==> forall k :: k in idx.keys ==> k <= r.value
  {
    if |idx.keys| == 0 then None else Some(idx.keys[0])
  }

  /**
   * The slot filling of `minmax_indexscan`: each scan that yields a row
   * writes it at position `n` and advances `n`; both NULL flags start set.
   */
  function IndexScanSlots(backward: Option<int>, forward: Option<int>): (r: MinMaxResult)
    ensures r.Found? <==> backward.Some? && forward.Some?
    ensures r.Found? ==> r.slot0 == backward.value && r.slot1 == forward.value
    ensures !r.NoIndex?
  {
    var empty: seq<Option<int>> := [None, None];
    var (afterBackward, n) := if backward.Some? then (empty[0 := backward], 1) else (empty, 0);
    var slots := if forward.Some? then afterBackward[n := forward] else afterBackward;
    if slots[0].None? || slots[1].None? then NoTuples else Found(slots[0].value, slots[1].value)
  }

  /** `minmax_indexscan`: slot 0 gets the backward scan's row, slot 1 the forward scan's. */
  function MinMaxIndexScan(idx: IndexDesc): (r: MinMaxResult)
    ensures r.Found? <==> |idx.keys| > 0
    ensures r.Found? ==> r.slot0 == idx.keys[|idx.keys| - 1] && r.slot1 == idx.keys[0]
    ensures !r.NoIndex?
  {
    IndexScanSlots(BackwardFirst(idx), ForwardFirst(idx))
  }

  predicate SortedAscending(keys: seq<int>) {
    forall i, j :: 0 <= i <= j < |keys| ==> keys[i] <= keys[j]
  }

  predicate SortedDescending(keys: seq<int>) {
    forall i, j :: 0 <= i <= j < |keys| ==> keys[i] >= keys[j]
  }

  /** On an ascending index slot 0 holds the largest key and slot 1 the smallest. */
  lemma AscendingIndexSwapsSlots(idx: IndexDesc)
    requires SortedAscending(idx.keys) && |idx.keys| > 0
    ensures MinMaxIndexScan(idx).slot0 >= MinMaxIndexScan(idx).slot1
  {
    assert idx.keys[0] <= idx.keys[|idx.keys| - 1];
  }

  /** On a descending index slot 0 holds the smallest key and slot 1 the largest. */
  lemma DescendingIndexKeepsOrder(idx: IndexDesc)
    requires SortedDescending(idx.keys) && |idx.keys| > 0
    ensures MinMaxIndexScan(idx).slot0 <= MinMaxIndexScan(idx).slot1
  {
    assert idx.keys[0] >= idx.keys[|idx.keys| - 1];
  }

  /** An index whose scan is used and finds rows. */
  predicate Yields(idx: IndexDesc) {
    idx.leadsWithColumn && |idx.keys| > 0
  }

  /** `k` is the first index of the list that yields rows. */
  predicate FirstYieldingAt(indexes: seq<IndexDesc>, k: int) {
    0 <= k < |indexes| && Yields(indexes[k]) &&
    forall j :: 0 <= j < k ==> !Yields(indexes[j])
  }

  predicate NoLeadingIndex(indexes: seq<IndexDesc>) {
    forall i :: 0 <= i < |indexes| ==> !indexes[i].leadsWithColumn
  }

  /** The loop of `relation_minmax_indexscan` over the remaining indexes, from result `res`. */
  function IndexLoop(indexes: seq<IndexDesc>, res: MinMaxResult): (r: MinMaxResult)
    requires !res.Found?
    ensures r.NoIndex? <==> res.NoIndex? && NoLeadingIndex(indexes)
    ensures r.Found? <==> exists k :: FirstYieldingAt(indexes, k)
    ensures r.Found? ==> exists k :: FirstYieldingAt(indexes, k) && r == MinMaxIndexScan(indexes[k])
    decreases |indexes|
  {
    if |indexes| == 0 then res
    else
      var res' := if indexes[0].leadsWithColumn then MinMaxIndexScan(indexes[0]) else res;
      if res'.Found? then
        assert FirstYieldingAt(indexes, 0);
        res'
      else
        var r := IndexLoop(indexes[1..], res');
        IndexLoopShift(indexes);
        r
  }

  /** How the loop's facts about the tail carry over to the whole list once the head yields nothing. */
  lemma IndexLoopShift(indexes: seq<IndexDesc>)
    requires |indexes| > 0 && !Yields(indexes[0])
    ensures NoLeadingIndex(indexes) <==> !indexes[0].leadsWithColumn && NoLeadingIndex(indexes[1..])
    ensures forall k :: FirstYieldingAt(indexes[1..], k) <==> FirstYieldingAt(indexes, k + 1)
    ensures forall k :: FirstYieldingAt(indexes, k) ==> k >= 1 && FirstYieldingAt(indexes[1..], k - 1)
  {
    var tail := indexes[1..];
    if !indexes[0].leadsWithColumn && NoLeadingIndex(tail) {
      forall i | 0 <= i < |indexes| ensures !indexes[i].leadsWithColumn {
        if i > 0 { assert indexes[i] == tail[i - 1]; }
      }
    }
    forall k ensures FirstYieldingAt(tail, k) <==> FirstYieldingAt(indexes, k + 1) {
      if FirstYieldingAt(tail, k) {
        forall j | 0 <= j < k + 1 ensures !Yields(indexes[j]) {
          if j > 0 { assert indexes[j] == tail[j - 1]; }
        }
      }
      if FirstYieldingAt(indexes, k + 1) {
        forall j | 0 <= j < k ensures !Yields(tail[j]) {
          assert tail[j] == indexes[j + 1];
        }
      }
    }
  }

  /**
   * `relation_minmax_indexscan`: scans each index whose leading column is
   * the dimension column, stopping at the first that finds rows.
   */
  function RelationMinMaxIndexScan(indexes: seq<IndexDesc>): (r: MinMaxResult)
    ensures r.NoIndex? <==> NoLeadingIndex(indexes)
    ensures r.Found? <==> exists k :: FirstYieldingAt(indexes, k)
    ensures r.Found? ==>
              exists k :: FirstYieldingAt(indexes, k) &&
                          r.slot0 == indexes[k].keys[|indexes[k].keys| - 1] &&
                          r.slot1 == indexes[k].keys[0]
  {
    IndexLoop(indexes, NoIndex)
  }

  /** `table_has_minmax_index`: some index leads with the dimension column. */
  function TableHasMinMaxIndex(indexes: seq<IndexDesc>): (b: bool)
    ensures b <==> exists i :: 0 <= i < |indexes| && indexes[i].leadsWithColumn
  {
    !RelationMinMaxIndexScan(indexes).NoIndex?
  }

  // ---------------------------------------------------------------------
  // The chunk lookup
  // ---------------------------------------------------------------------

  /** A value is stored in the chunk: in some row, or as a key of some index. */
  predicate InChunk(v: int, rows: seq<Option<int>>, indexes: seq<IndexDesc>) {
    Occurs(v, rows) ||
    exists i, j :: 0 <= i < |indexes| && 0 <= j < |indexes[i].keys| && indexes[i].keys[j] == v
  }

  /**
   * `chunk_get_minmax`: the index path first, the heap scan only when no
   * index leads with the dimension column; `Some((slot0, slot1))` exactly
   * when the final result is found.
   */
  function ChunkGetMinMax(rows: seq<Option<int>>, indexes: seq<IndexDesc>): (r: Option<(int, int)>)
    ensures NoLeadingIndex(indexes) ==> (r.Some? <==> HasValue(rows))
    ensures NoLeadingIndex(indexes) && r.Some? ==> IsLeast(r.value.0, rows) && IsGreatest(r.value.1, rows)
    ensures !NoLeadingIndex(indexes) ==> (r.Some? <==> exists k :: FirstYieldingAt(indexes, k))
    ensures !NoLeadingIndex(indexes) && r.Some? ==>
              exists k :: FirstYieldingAt(indexes, k) &&
                          r.value == (indexes[k].keys[|indexes[k].keys| - 1], indexes[k].keys[0])
    ensures r.Some? ==> InChunk(r.value.0, rows, indexes) && InChunk(r.value.1, rows, indexes)
  {
    var indexResult := RelationMinMaxIndexScan(indexes);
    var res := if indexResult.NoIndex? then MinMaxHeapScanIntended(rows) else indexResult;
    if res.Found? then Some((res.slot0, res.slot1)) else None
  }

  /**
   * `chunk_get_minmax` as written: the heap fallback is `minmax_heapscan`
   * with its max slot starting at `staleMax`, whatever the caller's
   * `minmax[1]` held. With a leading index it is the corrected lookup.
   */
  function ChunkGetMinMaxAsWritten(rows: seq<Option<int>>, indexes: seq<IndexDesc>, staleMax: int): (r: Option<(int, int)>)
    ensures !NoLeadingIndex(indexes) ==> r == ChunkGetMinMax(rows, indexes)
    ensures NoLeadingIndex(indexes) ==> (r.Some? <==> HasValue(rows))
    ensures NoLeadingIndex(indexes) && r.Some? ==>
              IsLeast(r.value.0, rows) && IsUpperBound(r.value.1, rows) && staleMax <= r.value.1 &&
              (Occurs(r.value.1, rows) || r.value.1 == staleMax)
  {
    var indexResult := RelationMinMaxIndexScan(indexes);
    var res := if indexResult.NoIndex? then MinMaxHeapScan(rows, staleMax) else indexResult;
    if res.Found? then Some((res.slot0, res.slot1)) else None
  }

  /** The stale max slot cannot show: an index leads, there is no value, or some value reaches it. */
  predicate StaleMaxHarmless(rows: seq<Option<int>>, indexes: seq<IndexDesc>, staleMax: int) {
    !NoLeadingIndex(indexes) || !HasValue(rows) ||
    exists i :: 0 <= i < |rows| && rows[i].Some? && staleMax <= rows[i].value
  }

  /** The lookup as written agrees with the corrected one exactly when the stale max slot is harmless. */
  lemma ChunkGetMinMaxAgreement(rows: seq<Option<int>>, indexes: seq<IndexDesc>, staleMax: int)
    ensures ChunkGetMinMaxAsWritten(rows, indexes, staleMax) == ChunkGetMinMax(rows, indexes) <==>
            StaleMaxHarmless(rows, indexes, staleMax)
  {
    var a := ChunkGetMinMaxAsWritten(rows, indexes, staleMax);
    var b := ChunkGetMinMax(rows, indexes);
    if NoLeadingIndex(indexes) && HasValue(rows) {
      if i :| 0 <= i < |rows| && rows[i].Some? && staleMax <= rows[i].value {
        HeapScanAgreesBelowStaleMax(rows, staleMax, i);
        assert RelationMinMaxIndexScan(indexes).NoIndex?;
      } else {
        var j :| 0 <= j < |rows| && rows[j].Some? && rows[j].value == b.value.1;
        assert staleMax <= a.value.1;
        assert rows[j].value < staleMax;
      }
    }
  }
}

=== FILE: sizing_func.dfy ===
/**
 * Validation of a pluggable chunk sizing function (`chunk_sizing_func_validate`):
 * it must take `(int4, int8, int8)` and return `int8`.
 *
 * The system-cache lookup of the function's catalog row is an oracle from
 * function OIDs to `ProcForm` rows.
 */
module SizingFunc {
  import opened Wrappers

  /** PostgreSQL's OIDs of the built-in types `int4` and `int8`. */
  const INT4OID: int := 23
  const INT8OID: int := 20

  const InvalidOid: int := 0

  /** The arity every chunk sizing function has. */
  const CHUNK_SIZING_FUNC_NARGS: int := 3

  /** The fields of a `pg_proc` row that validation reads. */
  datatype ProcForm = ProcForm(schema: string, name: string, argTypes: seq<int>, returnType: int)

  datatype SizingFuncError = UndefinedFunction | CacheLookupFailed(func: int) | InvalidSignature

  /** The validated function, with the schema and name recorded in the sizing info. */
  datatype SizingFuncInfo = SizingFuncInfo(func: int, schema: string, name: string)

  /** The rejection test of the source, with C's short-circuit order. */
  predicate SignatureMismatch(p: ProcForm): (b: bool)
    ensures !b <==> p.argTypes == [INT4OID, INT8OID, INT8OID] && p.returnType == INT8OID
  {
    |p.argTypes| != CHUNK_SIZING_FUNC_NARGS ||
    p.argTypes[0] != INT4OID ||
    p.argTypes[1] != INT8OID ||
    p.argTypes[2] != INT8OID ||
    p.returnType != INT8OID
  }

  function ChunkSizingFuncValidate(func: int, lookup: int -> Option<ProcForm>): (r: Result<SizingFuncInfo, SizingFuncError>)
    ensures func == InvalidOid ==> r == Err(UndefinedFunction)
    ensures func != InvalidOid && lookup(func).None? ==> r == Err(CacheLookupFailed(func))
    ensures func != InvalidOid && lookup(func).Some? && SignatureMismatch(lookup(func).value) ==>
              r == Err(InvalidSignature)
    ensures r.Ok? <==>
              func != InvalidOid && lookup(func).Some? &&
              lookup(func).value.argTypes == [INT4OID, INT8OID, INT8OID] &&
              lookup(func).value.returnType == INT8OID
    ensures r.Ok? ==>
              r.value == SizingFuncInfo(func, lookup(func).value.schema, lookup(func).value.name)
  {
    if func == InvalidOid then Err(UndefinedFunction)
    else
      match lookup(func)
      case None => Err(CacheLookupFailed(func))
      case Some(form) =>
        if SignatureMismatch(form) then Err(InvalidSignature)
        else Ok(SizingFuncInfo(func, form.schema, form.name))
  }

  /** A function with one argument too many is refused even if the first three match. */
  lemma ExtraArgumentRejected(func: int, form: ProcForm)
    requires func != InvalidOid
    requires form.argTypes == [INT4OID, INT8OID, INT8OID, INT8OID] && form.returnType == INT8OID
    ensures ChunkSizingFuncValidate(func, (f: int) => Some(form)) == Err(InvalidSignature)
  {
  }
}

=== FILE: target_size.dfy ===
/**
 * Resolution of the user's chunk target size text (`chunk_target_size_in_bytes`):
 * the keywords `off`, `disable` and `estimate`, or an explicit memory amount.
 */
module TargetSize {
  import opened Wrappers
  import opened CInt
  import opened MemoryBudget

  /** ASCII lower-casing, the folding `pg_strcasecmp` applies to plain ASCII letters. */
  function ToLowerAscii(c: char): (l: char)
    ensures 'A' <= c <= 'Z' ==> l as int == c as int + 32
    ensures !('A' <= c <= 'Z') ==> l == c
    ensures !('A' <= l <= 'Z')
  {
    if 'A' <= c <= 'Z' then (c as int + 32) as char else c
  }

  /** The text with every ASCII upper-case letter lowered. */
  function FoldCase(s: string): (f: string)
    ensures |f| == |s|
    ensures forall i :: 0 <= i < |s| ==> f[i] == ToLowerAscii(s[i])
    decreases |s|
  {
    if |s| == 0 then [] else FoldCase(s[..|s| - 1]) + [ToLowerAscii(s[|s| - 1])]
  }

  /**
   * `pg_strcasecmp(s, t) == 0` for ASCII text: the two texts are equal once
   * case is folded, so every text matches itself.
   */
  predicate EqualsIgnoreCase(s: string, t: string): (b: bool)
    ensures b <==> FoldCase(s) == FoldCase(t)
    ensures s == t ==> b
  {
    var b := |s| == |t| && forall i :: 0 <= i < |s| ==> ToLowerAscii(s[i]) == ToLowerAscii(t[i]);
    assert b ==> FoldCase(s) == FoldCase(t);
    assert FoldCase(s) == FoldCase(t) ==> b by {
      if FoldCase(s) == FoldCase(t) {
        forall i | 0 <= i < |s|
          ensures ToLowerAscii(s[i]) == ToLowerAscii(t[i])
        {
          assert FoldCase(s)[i] == FoldCase(t)[i];
        }
      }
    }
    b
  }

  /** Text without ASCII upper-case letters is its own case folding. */
  lemma FoldCaseOfLower(s: string)
    requires forall i :: 0 <= i < |s| ==> !('A' <= s[i] <= 'Z')
    ensures FoldCase(s) == s
  {
  }

  /** `off` or `disable` in any letter case: the text folds to one of them. */
  predicate IsDisableKeyword(text: string): (b: bool)
    ensures b <==> FoldCase(text) == "off" || FoldCase(text) == "disable"
  {
    FoldCaseOfLower("off");
    FoldCaseOfLower("disable");
    EqualsIgnoreCase(text, "off") || EqualsIgnoreCase(text, "disable")
  }

  /** `estimate` in any letter case: the text folds to it. */
  predicate IsEstimateKeyword(text: string): (b: bool)
    ensures b <==> FoldCase(text) == "estimate"
  {
    FoldCaseOfLower("estimate");
    EqualsIgnoreCase(text, "estimate")
  }

  /** Sizes of zero or less disable adaptive chunking and are stored as zero. */
  function NormalizeTargetSize(bytes: int): (r: int)
    ensures r >= 0
    ensures r == 0 <==> bytes <= 0
    ensures r > 0 ==> r == bytes
  {
    if bytes <= 0 then 0 else bytes
  }

  /**
   * `chunk_target_size_in_bytes`: the target size in bytes that a target
   * size text denotes; never negative.
   */
  function ChunkTargetSizeInBytes(text: string, cfg: MemoryConfig, parse: BlockParser): (r: Result<int, Error>)
    requires WellFormedConfig(cfg)
    ensures r.Ok? ==> 0 <= r.value && InInt64(r.value)
    ensures IsDisableKeyword(text) ==> r == Ok(0)
    ensures !IsDisableKeyword(text) && IsEstimateKeyword(text) ==>
              (r.Ok? <==> CalculateInitialChunkTargetSize(cfg, parse).Ok?) &&
              (r.Ok? ==> (r.value == 0 <==> CalculateInitialChunkTargetSize(cfg, parse).value <= 0)) &&
              (r.Ok? && r.value > 0 ==> r.value == CalculateInitialChunkTargetSize(cfg, parse).value)
    ensures !IsDisableKeyword(text) && IsEstimateKeyword(text) && CalculateInitialChunkTargetSize(cfg, parse).Err? ==>
              r == CalculateInitialChunkTargetSize(cfg, parse).PropagateFailure()
    ensures !IsDisableKeyword(text) && !IsEstimateKeyword(text) ==>
              (r.Ok? <==> parse(text).Some?) &&
              (r.Ok? ==> (r.value == 0 <==> parse(text).value <= 0)) &&
              (r.Ok? && r.value > 0 ==> r.value == parse(text).value * BLCKSZ)
    ensures !IsDisableKeyword(text) && !IsEstimateKeyword(text) && parse(text).None? ==> r == Err(InvalidDataAmount)
  {
    if IsDisableKeyword(text) then Ok(0)
    else
      var bytes :- if IsEstimateKeyword(text) then CalculateInitialChunkTargetSize(cfg, parse)
                   else ConvertTextMemoryAmountToBytes(Some(text), parse);
      Ok(NormalizeTargetSize(bytes))
  }

  /**
   * Resolving `estimate` gives the same byte value as calling the estimator
   * directly, normalised to zero when it is not positive; the errors are the
   * estimator's.
   */
  lemma EstimateKeywordRoundTrip(cfg: MemoryConfig, parse: BlockParser)
    requires WellFormedConfig(cfg)
    ensures ChunkTargetSizeInBytes("estimate", cfg, parse) ==
            match CalculateInitialChunkTargetSize(cfg, parse)
            case Ok(v) => Ok(NormalizeTargetSize(v))
            case Err(e) => Err(e)
  {
    assert !IsDisableKeyword("estimate") by {
      assert ToLowerAscii("estimate"[0]) != ToLowerAscii("disable"[0]);
    }
  }

  /** `OFF` in any letter case disables sizing without consulting the parser. */
  lemma DisableKeywordsIgnoreCase(cfg: MemoryConfig, parse: BlockParser)
    requires WellFormedConfig(cfg)
    ensures ChunkTargetSizeInBytes("OFF", cfg, parse) == Ok(0)
    ensures ChunkTargetSizeInBytes("Disable", cfg, parse) == Ok(0)
  {
    assert EqualsIgnoreCase("OFF", "off");
    assert EqualsIgnoreCase("Disable", "disable");
  }
}

=== FILE: wrappers.dfy ===
/** Failure-compatible wrappers shared by every module of the model. */
module Wrappers {

  /** An optional value: the model's stand-in for a NULL pointer or an unset slot. */
  datatype Option<+T> = None | Some(value: T)

  /** The outcome of an operation that can raise an ERROR in the source. */
  datatype Result<+T, +E> = Ok(value: T) | Err(error: E) {

    predicate IsFailure() {
      Err?
    }

    function PropagateFailure<U>(): Result<U, E>
      requires Err?
    {
      Err(error)
    }

    function Extract(): T
      requires Ok?
    {
      value
    }
  }
}
